=== FILE: README.md ===
# neres: session and monitor-creation core in Dafny

neres is a command-line client for New Relic Synthetics. It logs in through
the vendor's HTML login form and manages "synthetic monitors" with the same
HTTP requests the vendor's web UI makes. This project models two parts of it:

- **The XSRF session** (`neres/session.py`). A `requests.Session` subclass keeps
  an optional anti-forgery token. Every response whose `XSRF-TOKEN` cookie is
  non-empty replaces the token. POST and PUT merge an `X-XSRF-TOKEN` header into
  the caller's headers unless `add_xsrf_token` is falsy. DELETE always merges
  it and GET never does.
- **The client operations** (`neres/newrelic.py`). This covers the login probe,
  the scripted login with its token scrape, the `requires_login` guard, the
  sorted monitor listing, delete, get, the location listing, and
  `create_monitor`. For `create_monitor` the model covers argument
  normalisation, the local bypass-HEAD rule, the metadata map, the payload and
  the mapping of the reply to `(code, detail)`.

Python values are modelled as `Values.Value` (None, bool, int, str, list,
dict), and `Values.Truthy` is Python's truthiness. Exceptions are
`Values.Error`. Every operation returns a `Step`: the session after the call,
plus either a result or an exception. The session records each request handed
to the transport, so the order of requests can be stated even when a call
raises. The server is a parameter `net`, a function from the request history
to the response for the last request.

Modules: `Wrappers` (Option, Result), `Values`, `Http` (requests, responses,
symbolic URLs), `Session`, `Strings` (Python string order, `in`), `Scrape`
(the login-token regular expression), `Sorting` (stable sort by key),
`Monitor` (pure `create_monitor` data) and `NewRelic` (the operations).

Points where the model follows the code rather than the obvious intent:

- `login` builds `Exception("Can't get CSRF token to login.")` but never raises
  it. A page without the token therefore fails with an `UnboundLocalError` for
  `token`, before the credentials are posted (`NewRelic.Login`).
- The pattern `name="authenticity_token" value="(.+?)"` finds the leftmost
  match with the shortest group. The group is non-empty and has no newline.
  It contains no `"` except possibly as its first character:
  `value=""x"` yields `"x` (`Scrape.QuoteMayLeadToken`).
- `create_monitor` is wrapped by `requires_login`, so the login probe (and
  possibly a login) runs before the local validation. The operation's own body
  sends nothing when validation fails, but the guard's requests have already
  been sent (`NewRelic.NoRequestBeforeValidation`).
- On a failed creation, only `ValueError` and `KeyError` are caught. A JSON
  reply that is not an object (a list, a string, ...) makes `['error']` raise
  `TypeError`, which escapes (`Monitor.CreationResult`).
- Truthiness is used everywhere the code says `if x`. Any falsy
  `add_xsrf_token` suppresses the header, not only `False`, and any truthy
  `validation_string` triggers the rule and lands in the metadata.

## Model

| member | source | states |
|---|---|---|
| `Session.StoreXsrfToken` | neres/session.py:6-9 | a non-empty `XSRF-TOKEN` cookie replaces the token; an absent or empty one keeps the previous token; the request log is untouched; a stored token is never empty |
| `Session.StoreIdempotent` | neres/session.py:6-9 | storing the same response twice equals storing it once |
| `Session.StoreAllKeepsLatest` | neres/session.py:6-9 | after any run of responses the token is the one offered by the last response that offered one, else the initial token |
| `Session.SetXsrfHeaders` | neres/session.py:11-19 | fails with AttributeError while no token was ever stored, and when `headers` is not a dict; otherwise sets `X-XSRF-TOKEN` to the token, overwriting any previous value, and leaves every other header and argument unchanged |
| `Session.NoCallerHeaders` | neres/session.py:17-18 | with no caller headers the headers become exactly `{X-XSRF-TOKEN: token}` |
| `Session.SetXsrfHeadersIdempotent` | neres/session.py:11-16 | merging the header a second time changes nothing |
| `Session.Get` | neres/session.py:21-24 | GET forwards the caller's arguments unchanged, appends exactly that request to the log, and runs the token-store step on its response |
| `Session.Post` | neres/session.py:26-31 | POST removes the flag; when it is falsy it sends the rest unchanged; when it is truthy or absent it sends the merged arguments, or raises the merge error without sending; every send runs the token-store step |
| `Session.Put` | neres/session.py:33-38 | PUT follows the same rule as POST with verb PUT |
| `Session.Delete` | neres/session.py:40-44 | DELETE always merges the header, with no opt-out, and sends nothing when the merge fails; every send runs the token-store step |
| `Session.PostPutHeaderRule` | neres/session.py:26-38 | for a caller whose `headers` is a dict or absent and holds no `X-XSRF-TOKEN`: POST/PUT succeed iff the flag is falsy or a token exists; the forwarded arguments never hold the flag; they carry `X-XSRF-TOKEN` iff the flag is truthy or absent, and then with the current token; on failure nothing is sent |
| `Session.DeleteAndGetHeaderRule` | neres/session.py:21-44 | for a caller whose `headers` is a dict or absent: DELETE succeeds iff a token exists and then carries it; GET forwards exactly the caller's headers |
| `Session.TokenFromAnswersTrans` | neres/session.py:21-44 | the token-store step composes over calls: when each of two consecutive calls leaves the token its start token updated by the answers it received, so does the pair, over all the answers in order |
| `Session.VerbsPreserveToken` | neres/session.py:21-44 | every verb keeps the stored token non-empty and only appends to the request log |
| `Scrape.ScrapeToken` | neres/newrelic.py:46-48 | the token is absent iff the pattern matches nowhere; otherwise it is the group of the leftmost match with the shortest group |
| `Scrape.ScrapedTokenShape` | neres/newrelic.py:47-48 | a scraped token is non-empty, holds no newline, holds no `"` after its first character, and appears in the page between the prefix and a quote |
| `Scrape.QuoteMayLeadToken` | neres/newrelic.py:47-48 | `value=""x"` yields the token `"x`: the first character may be a quote |
| `Scrape.NoPrefixNoToken` | neres/newrelic.py:46-48 | a page without the literal prefix yields no token |
| `Sorting.SortBy` | neres/newrelic.py:75 | the sort result is ordered by key, is a permutation of the input, and keeps the input order among equal keys |
| `Sorting.SortedByUnique` | neres/newrelic.py:75 | two sequences ordered by key that hold the same elements of every key in the same order are equal |
| `Sorting.SortByDetermined` | neres/newrelic.py:75 | any ordering that is sorted by key and keeps each key's elements in input order is the sort's result, so the sort's contract fixes Python's stable `sorted` output |
| `Monitor.AsList` | neres/newrelic.py:114-118 | a string argument becomes a one-element list, anything else passes through unchanged, and the result is never a string |
| `Monitor.AsListIdempotent` | neres/newrelic.py:114-118 | normalising twice equals normalising once |
| `Monitor.Normalise` | neres/newrelic.py:114-118 | a string `locations` or `emails` becomes the one-element list holding it, any other value is kept, and no other argument changes |
| `Monitor.Metadata` | neres/newrelic.py:130-140 | the keys are exactly those the flags imply; bypass and both TLS and both redirect keys hold True; the validation key holds the validation string |
| `Monitor.MetadataEmptyIffNoFlag` | neres/newrelic.py:130-140 | the metadata is empty iff no flag is truthy |
| `Monitor.MetadataRoundTrip` | neres/newrelic.py:130-140 | reading the flags back from the metadata gives each flag's truthiness and the validation string when it is set |
| `Monitor.Payload` | neres/newrelic.py:142-154 | the payload has exactly the eleven fields of the creation document |
| `Monitor.PayloadRoundTrip` | neres/newrelic.py:142-154 | type SIMPLE, status ENABLED and no conditions are fixed, the account is the configured one, and name, uri, frequency, locations, emails and slaThreshold read back verbatim with the flags in canonical form |
| `Monitor.DefaultsPayload` | neres/newrelic.py:110-113 | with every default taken the rule holds, the metadata is empty, slaThreshold is 7 and emails is an empty list |
| `Monitor.CreationResult` | neres/newrelic.py:157-166 | on 4xx/5xx the result is `(1, error field)`, or `(1, 'Bad request')` when the body is not JSON or has no `error`; a JSON non-object raises TypeError; on success it is `(0, page of the returned id)`, or ValueError/KeyError when the id cannot be read; code 0 iff no HTTP error |
| `Monitor.VendorMessageSurvives` | neres/newrelic.py:157-164 | any failing reply whose JSON carries `error: e` yields `(1, e)`; a non-JSON failing reply yields `(1, 'Bad request')` |
| `NewRelic.CheckIfLoggedIn` | neres/newrelic.py:34-39 | sends one GET of the account page with redirects off; raises on 4xx/5xx; returns true iff the status is 200; the session keeps the probe answer's token, or the previous one when it offers none |
| `NewRelic.Login` | neres/newrelic.py:42-65 | fetches the form first; an HTTP error or a missing token (as an unbound `token`) stops after that one request; otherwise posts exactly the credential form with the token and no XSRF header; a 4xx/5xx answer raises its HTTPError; a non-error answer fails with 'Login Failed' iff it contains `login_email`; success otherwise; the token left is the start token updated by the form page's and the answer's cookies, in order |
| `NewRelic.PostCredentials` | neres/newrelic.py:61-64 | sends exactly the credential form, with the opt-out flag removed; a 4xx/5xx answer raises its HTTPError; a non-error answer fails with 'Login Failed' iff it contains `login_email`; the token left is updated by the answer's cookie |
| `NewRelic.LoginPostHasNoXsrfHeader` | neres/newrelic.py:52-61 | the credentials post carries no headers and carries the scraped token as `authenticity_token` |
| `NewRelic.LoginExactlyWhenProbeFails` | neres/newrelic.py:26-31 | the guard probes first; it starts the login handshake right after the probe iff the probe returned false; after a true probe it sends nothing more |
| `NewRelic.EnsureLoggedIn` | neres/newrelic.py:26-39 | the probe is sent first; a 4xx/5xx probe is raised and a 200 ends the guard with nothing more sent; any other status runs the login on the session the probe left; the token handed on is the start token updated by every answer the guard received, in order |
| `NewRelic.GuardLeavesLatestToken` | neres/newrelic.py:26-31 | the guard hands the wrapped operation the token of the last of its answers that offered one, or the token it started with when none did |
| `NewRelic.RequiresLogin` | neres/newrelic.py:26-31 | the wrapped operation runs on the session the guard leaves whenever the guard returned, and is skipped with the guard's exception otherwise |
| `NewRelic.FetchJson` | neres/newrelic.py:93-106 | one GET of the resource; raises on 4xx/5xx, ValueError when the body is not JSON, else returns the decoded document; the session keeps that answer's token, or the previous one |
| `NewRelic.GetMonitor` | neres/newrelic.py:101-106 | after the guard returns, one GET of the monitor's JSON address; HTTPError on 4xx/5xx, ValueError when the body is not JSON, else the decoded document; a guard failure is raised with nothing more sent; the token left is the start token updated by every answer received, in order |
| `NewRelic.GetLocations` | neres/newrelic.py:93-98 | after the guard returns, one GET of the location listing, with the same three outcomes; a guard failure is raised with nothing more sent; the token left is the start token updated by every answer received, in order |
| `NewRelic.FirstSubscriptError` | neres/newrelic.py:75 | no error iff every record is a dict with a `name`; otherwise the TypeError or KeyError of the first record that is not |
| `NewRelic.SortMonitors` | neres/newrelic.py:72-75 | a list of records with string names is returned as a stable, name-ordered permutation; the first failing `x['name']` is raised; an empty dict or string gives an empty list; any other document that is not a list raises TypeError |
| `NewRelic.GetMonitorsBody` | neres/newrelic.py:69-77 | one GET of the listing; HTTPError on 4xx/5xx, ValueError when the body is not JSON, else the document passed through the sort; the token left is the start token updated by every answer received, in order |
| `NewRelic.GetMonitors` | neres/newrelic.py:68-77 | the listing is fetched, as above, only once the guard has returned; a guard failure is raised with nothing more sent; the token left is the start token updated by every answer received, in order |
| `NewRelic.GetMonitorsSortsStably` | neres/newrelic.py:68-77 | when the listing is a list of records whose names are all strings: one GET of the listing, and the result is a permutation of the fetched list, ordered by name, with equal names in fetched order |
| `NewRelic.DeleteMonitorBody` | neres/newrelic.py:81-90 | a 4xx/5xx on the GET is raised after that one request; with no token after the GET, AttributeError and no DELETE; otherwise two requests, and the result is success iff the DELETE's answer is not 4xx/5xx, else its HTTPError; the token left is the start token updated by every answer received, in order |
| `NewRelic.DeleteMonitor` | neres/newrelic.py:80-90 | the guard's requests come first; a guard failure is raised; otherwise the body runs on the session the guard left; the token left is the start token updated by every answer received, in order |
| `NewRelic.RefererDelete` | neres/newrelic.py:84-89 | with a token stored, the DELETE is sent once and its headers are exactly `Referer` (the fetched page's address) and `X-XSRF-TOKEN` (the token) |
| `NewRelic.DeleteTrace` | neres/newrelic.py:80-90 | a failed GET or a missing token sends only the GET; otherwise the DELETE follows the GET of the same monitor, carries that page's address as Referer and the token current after the GET, and succeeds iff its answer is not 4xx/5xx |
| `NewRelic.CreateMonitorBody` | neres/newrelic.py:110-166 | a broken bypass rule raises before any request; a 4xx/5xx on the creation page is raised after that one GET; with no token after the GET, AttributeError and no POST; otherwise one POST follows and its answer is mapped to `(code, detail)`; the token left is the start token updated by every answer received, in order |
| `NewRelic.CreateMonitor` | neres/newrelic.py:109-166 | the guard's requests come first; a guard failure is raised; otherwise the body runs on the session the guard left; the token left is the start token updated by every answer received, in order |
| `NewRelic.NoRequestBeforeValidation` | neres/newrelic.py:120-123 | a truthy validation string without the bypass fails before the operation sends any request; only the login guard's requests are in the log |
| `NewRelic.CreateTrace` | neres/newrelic.py:120-166 | a broken rule sends nothing; a failed GET of the creation page or a missing token sends only that GET; otherwise exactly one POST of the payload follows, with Referer, JSON content type and the token current after the GET, and the result is its answer mapped to `(code, detail)` |
| `NewRelic.CreationKwargsMerged` | neres/newrelic.py:125-128 | after the header merge the creation post keeps the payload and carries exactly Referer, Content-Type and X-XSRF-TOKEN |

## Left out

- HTTP transport, redirects, cookies other than `XSRF-TOKEN`, and JSON decoding. The server is the `net` parameter. A response carries its decoded JSON (or none) next to its raw body, and the two are not related in the model. `net` is total: the transport always answers, so connection errors and timeouts (which nothing in the client catches) are not modelled.
- `json.dumps` serialisation of the creation payload: the post's `data` is the value that would be serialised.
- URL construction. URLs are symbolic (`Http.Url`). As written, `urls.ACCOUNT` does not exist in neres/urls.py, and `MONITOR`/`MONITOR_JSON` are formatted positionally although their fields are named. Python would raise on both. `MONITORS`, `NEW_MONITOR` and `MONITOR_LOCATIONS` are never formatted at all, so they would be requested with a literal `{account}` in the address. The model assumes each URL names the resource it is meant to.
- The cookie jar: `initialize_cookiejar`, the save after login, and the `0o600` permission. These are filesystem effects.
- neres/config.py (environment lookup and directory creation): the account, e-mail and password are the `Config` parameter.
- In-place mutation of the caller's header dict by `update`. The model has value semantics; in the code the caller's dict is local and is not read again.
- neres/cli.py (table rendering and the float health thresholds), neres/spinner.py (a terminal thread), setup.py and the tests.
- `NewRelic.SortMonitors`: a record whose `name` is not a string is reported as TypeError. Python 2 would order mixed types by its own rules instead, so this case is stated differently from the source.
- Floating-point numbers. `Values.Value` has no float, so decoded JSON with fractional numbers (a `slaThreshold` of 7.5, a float `name`) is outside the model.
- The `✓` form value is one code point here, where Python 2 sends its UTF-8 bytes.

=== FILE: http.dfy ===
/**
 The HTTP transport seen from the client: the requests it hands over, the
 responses it gets back, and the server as a function of the request history.
 */
module Http {
  import opened Wrappers
  import opened Values

  datatype Verb = GET | POST | PUT | DELETE

  /**
   The endpoints the client addresses. URL construction from the string
   templates of neres/urls.py is kept symbolic: a URL is named by its template
   and the value substituted into it.
   */
  datatype Url =
    | AccountProbe
    | LoginPage
    | Monitors
    | NewMonitor
    | MonitorJson(monitor: Value)
    | MonitorPage(monitor: Value)
    | MonitorLocations

  /** The keyword arguments forwarded to the transport (`headers`, `data`, ...). */
  type Kwargs = map<string, Value>

  datatype Request = Request(verb: Verb, url: Url, kwargs: Kwargs)

  /**
   A response: status code, final URL after redirects, the cookies it set,
   the raw body, and the body decoded as JSON when it is JSON.
   */
  datatype Response = Response(
    status: int,
    url: string,
    cookies: map<string, string>,
    content: string,
    json: Option<Value>)

  /** The server: the response to the last request of a request history. */
  type Net = seq<Request> -> Response

  /** `Response.raise_for_status` raises exactly for client and server errors. */
  predicate IsHttpError(r: Response)
  {
    400 <= r.status < 600
  }
}

=== FILE: monitor.dfy ===
/**
 The pure data shaping of `create_monitor` in neres/newrelic.py: argument
 normalisation, the local validation rule, the vendor metadata map, the JSON
 payload, and the mapping of the creation response to `(code, detail)`.
 */
module Monitor {
  import opened Wrappers
  import opened Values
  import opened Http

  const BypassHeadKey: string := "nr.synthetics.metadata.job.options.simple.bypass.head"
  const ValidationKey: string := "nr.synthetics.metadata.job.options.response-validation"
  const TlsOptionKey: string := "nr.synthetics.metadata.job.options.tlsValidation"
  const TlsMonitorKey: string := "nr.synthetics.monitor.tls-validation"
  const RedirectOptionKey: string := "nr.synthetics.metadata.job.options.redirectIsFailure"
  const RedirectSimpleKey: string := "nr.synthetics.metadata.job.options.simple.redirect.is.failure"

  const ValidationMessage: string := "Response validation requires to bypass HEAD request."
  const BadRequest: string := "Bad request"
  const DefaultSlaThreshold: int := 7

  /** The arguments of `create_monitor`, each an arbitrary Python value. */
  datatype CreateArgs = CreateArgs(
    name: Value,
    uri: Value,
    frequency: Value,
    locations: Value,
    emails: Value,
    validationString: Value,
    bypassHeadRequest: Value,
    verifySsl: Value,
    redirectIsFailure: Value,
    slaThreshold: Value)

  /** A call that passes only the four positional arguments and takes every default. */
  function WithDefaults(name: Value, uri: Value, frequency: Value, locations: Value): CreateArgs
  {
    CreateArgs(name, uri, frequency, locations, List([]), Str(""), Bool(false), Bool(false), Bool(false),
               Int(DefaultSlaThreshold))
  }

  /** A string argument becomes a one-element list; anything else passes through. */
  function AsList(v: Value): (r: Value)
    ensures !r.Str?
    ensures v.Str? ==> r == List([v])
    ensures !v.Str? ==> r == v
  {
    if v.Str? then List([v]) else v
  }

  /** Normalising an already normalised argument changes nothing. */
  lemma AsListIdempotent(v: Value)
    ensures AsList(AsList(v)) == AsList(v)
  {
  }

  /** The arguments after `locations` and `emails` were normalised. */
  function Normalise(a: CreateArgs): (r: CreateArgs)
    ensures !r.locations.Str? && !r.emails.Str?
    ensures r.locations == (if a.locations.Str? then List([a.locations]) else a.locations)
    ensures r.emails == (if a.emails.Str? then List([a.emails]) else a.emails)
    ensures r.(locations := a.locations, emails := a.emails) == a
  {
    a.(locations := AsList(a.locations), emails := AsList(a.emails))
  }

  /** The local rule: response validation needs the HEAD request bypassed. */
  predicate ViolatesBypassRule(a: CreateArgs)
  {
    Truthy(a.validationString) && !Truthy(a.bypassHeadRequest)
  }

  /** The metadata keys the flags imply. */
  function MetadataKeys(a: CreateArgs): set<string>
  {
    (if Truthy(a.bypassHeadRequest) then {BypassHeadKey} else {})
    + (if Truthy(a.validationString) then {ValidationKey} else {})
    + (if Truthy(a.verifySsl) then {TlsOptionKey, TlsMonitorKey} else {})
    + (if Truthy(a.redirectIsFailure) then {RedirectOptionKey, RedirectSimpleKey} else {})
  }

  /** The metadata map, built key by key as the flags are tested. */
  function Metadata(a: CreateArgs): (m: map<string, Value>)
    ensures m.Keys == MetadataKeys(a)
    ensures BypassHeadKey in m ==> m[BypassHeadKey] == Bool(true)
    ensures ValidationKey in m ==> m[ValidationKey] == a.validationString
    ensures forall k :: k in m && k != ValidationKey ==> m[k] == Bool(true)
  {
    var m0 := map[];
    var m1 := if Truthy(a.bypassHeadRequest) then m0[BypassHeadKey := Bool(true)] else m0;
    var m2 := if Truthy(a.validationString) then m1[ValidationKey := a.validationString] else m1;
    var m3 := if Truthy(a.verifySsl) then m2[TlsOptionKey := Bool(true)][TlsMonitorKey := Bool(true)] else m2;
    if Truthy(a.redirectIsFailure) then m3[RedirectOptionKey := Bool(true)][RedirectSimpleKey := Bool(true)] else m3
  }

  /** The metadata is empty exactly when no flag is set. */
  lemma MetadataEmptyIffNoFlag(a: CreateArgs)
    ensures Metadata(a) == map[] <==>
      !Truthy(a.bypassHeadRequest) && !Truthy(a.validationString) && !Truthy(a.verifySsl) && !Truthy(a.redirectIsFailure)
  {
    if Truthy(a.bypassHeadRequest) {
      assert BypassHeadKey in Metadata(a);
    } else if Truthy(a.validationString) {
      assert ValidationKey in Metadata(a);
    } else if Truthy(a.verifySsl) {
      assert TlsOptionKey in Metadata(a);
    } else if Truthy(a.redirectIsFailure) {
      assert RedirectOptionKey in Metadata(a);
    }
  }

  /** The four flags as they can be read back from a metadata map. */
  datatype Flags = Flags(bypassHead: bool, validation: Option<Value>, verifySsl: bool, redirectIsFailure: bool)

  /** Reads the flags back: a TLS or redirect flag is set only when both of its keys are. */
  function FlagsOf(m: map<string, Value>): Flags
  {
    Flags(
      BypassHeadKey in m && m[BypassHeadKey] == Bool(true),
      if ValidationKey in m then Some(m[ValidationKey]) else None,
      TlsOptionKey in m && TlsMonitorKey in m,
      RedirectOptionKey in m && RedirectSimpleKey in m)
  }

  /** The flags exactly as the metadata records them: truthiness, and the validation string when set. */
  function FlagsFromArgs(a: CreateArgs): Flags
  {
    Flags(Truthy(a.bypassHeadRequest),
          if Truthy(a.validationString) then Some(a.validationString) else None,
          Truthy(a.verifySsl),
          Truthy(a.redirectIsFailure))
  }

  /** The metadata loses nothing but the flags' exact values: it decodes back to their truthiness. */
  lemma MetadataRoundTrip(a: CreateArgs)
    ensures FlagsOf(Metadata(a)) == FlagsFromArgs(a)
  {
  }

  /** The keys of the creation payload. */
  const PayloadKeys: set<string> := {
    "accountId", "name", "type", "frequency", "uri", "status", "slaThreshold",
    "locations", "conditions", "metadata", "emails"}

  /** The JSON document posted to create the monitor. */
  function Payload(account: string, a: CreateArgs): (p: map<string, Value>)
    ensures p.Keys == PayloadKeys
  {
    map[
      "accountId" := Str(account),
      "name" := a.name,
      "type" := Str("SIMPLE"),
      "frequency" := a.frequency,
      "uri" := a.uri,
      "status" := Str("ENABLED"),
      "slaThreshold" := a.slaThreshold,
      "locations" := a.locations,
      "conditions" := List([]),
      "metadata" := Dict(Metadata(a)),
      "emails" := a.emails]
  }

  /** What a payload pins for every monitor: a simple, enabled check without conditions. */
  predicate FixedFields(p: map<string, Value>)
  {
    && "type" in p && p["type"] == Str("SIMPLE")
    && "status" in p && p["status"] == Str("ENABLED")
    && "conditions" in p && p["conditions"] == List([])
  }

  /** The caller's arguments read back from a payload, with the flags in canonical form. */
  function ArgsOf(p: map<string, Value>): Option<CreateArgs>
  {
    if !(PayloadKeys <= p.Keys) || !p["metadata"].Dict? then None
    else
      var f := FlagsOf(p["metadata"].entries);
      Some(CreateArgs(
        p["name"], p["uri"], p["frequency"], p["locations"], p["emails"],
        if f.validation.Some? then f.validation.value else Str(""),
        Bool(f.bypassHead), Bool(f.verifySsl), Bool(f.redirectIsFailure),
        p["slaThreshold"]))
  }

  /** The arguments with each flag replaced by the canonical value of its truthiness. */
  function Canonical(a: CreateArgs): CreateArgs
  {
    a.(validationString := if Truthy(a.validationString) then a.validationString else Str(""),
       bypassHeadRequest := Bool(Truthy(a.bypassHeadRequest)),
       verifySsl := Bool(Truthy(a.verifySsl)),
       redirectIsFailure := Bool(Truthy(a.redirectIsFailure)))
  }

  /**
   The payload copies name, uri, frequency, locations, emails and slaThreshold
   verbatim, pins the fixed fields and the account, and encodes the flags
   without loss beyond their truthiness.
   */
  lemma PayloadRoundTrip(account: string, a: CreateArgs)
    ensures FixedFields(Payload(account, a))
    ensures Payload(account, a)["accountId"] == Str(account)
    ensures ArgsOf(Payload(account, a)) == Some(Canonical(a))
  {
    MetadataRoundTrip(a);
  }

  /** Taking every default sets no metadata and a service-level threshold of 7 seconds. */
  lemma DefaultsPayload(account: string, name: Value, uri: Value, frequency: Value, locations: Value)
    ensures var a := Normalise(WithDefaults(name, uri, frequency, locations));
      && !ViolatesBypassRule(a)
      && Payload(account, a)["metadata"] == Dict(map[])
      && Payload(account, a)["slaThreshold"] == Int(7)
      && Payload(account, a)["emails"] == List([])
  {
    MetadataEmptyIffNoFlag(Normalise(WithDefaults(name, uri, frequency, locations)));
  }

  /** The `(code, detail)` pair `create_monitor` returns. */
  datatype CreateOutcome = Created(url: Url) | Rejected(error: Value)
  {
    function Code(): int
    {
      if Created? then 0 else 1
    }
  }

  /**
   The creation response mapped to the result: a 4xx/5xx yields `(1, error)`
   with the JSON body's `error` field, or "Bad request" when the body is not
   JSON or lacks the field; JSON that is not an object cannot be subscripted
   and raises. Otherwise the created monitor's page is returned with code 0.
   */
  function CreationResult(resp: Response): (r: Result<CreateOutcome, Error>)
    ensures IsHttpError(resp) && resp.json.None? ==> r == Ok(Rejected(Str(BadRequest)))
    ensures IsHttpError(resp) && resp.json.Some? && resp.json.value.Dict? ==>
      r == Ok(Rejected(if "error" in resp.json.value.entries then resp.json.value.entries["error"] else Str(BadRequest)))
    ensures resp.json.Some? && !resp.json.value.Dict? ==> r == Err(TypeError)
    ensures !IsHttpError(resp) && resp.json.None? ==> r == Err(ValueError)
    ensures !IsHttpError(resp) && resp.json.Some? && resp.json.value.Dict? ==>
      r == (if "id" in resp.json.value.entries then Ok(Created(MonitorPage(resp.json.value.entries["id"])))
            else Err(KeyError("id")))
    ensures r.Ok? ==> (r.value.Code() == 0 <==> !IsHttpError(resp))
  {
    if IsHttpError(resp) then
      match resp.json
      case None => Ok(Rejected(Str(BadRequest)))
      case Some(Dict(m)) => Ok(Rejected(if "error" in m then m["error"] else Str(BadRequest)))
      case Some(_) => Err(TypeError)
    else
      match resp.json
      case None => Err(ValueError)
      case Some(Dict(m)) => if "id" in m then Ok(Created(MonitorPage(m["id"]))) else Err(KeyError("id"))
      case Some(_) => Err(TypeError)
  }

  /**
   The vendor's message survives the mapping: any error response whose JSON
   body is `{"error": e, ...}` gives `(1, e)`, and any failing response whose
   body is not JSON gives `(1, "Bad request")`.
   */
  lemma VendorMessageSurvives(resp: Response, e: Value)
    requires IsHttpError(resp)
    ensures resp.json.Some? && resp.json.value.Dict? && "error" in resp.json.value.entries
              && resp.json.value.entries["error"] == e ==>
            CreationResult(resp).Ok? && CreationResult(resp).value.Code() == 1
            && CreationResult(resp).value.error == e
    ensures resp.json.None? ==> CreationResult(resp).value == Rejected(Str(BadRequest))
  {
  }
}

=== FILE: newrelic.dfy ===
/**
 The operations of neres/newrelic.py over one session: the login probe and
 the scripted login, the `requires_login` guard, and the monitor operations.
 The transport is the `net` parameter; every request handed to it is recorded
 in the session's log, so the order of requests can be stated.
 */
module NewRelic {
  import opened Wrappers
  import opened Values
  import opened Http
  import opened Strings
  import opened Scrape
  import opened Sorting
  import opened Monitor
  import opened Session

  /** The account, e-mail and password read from the environment at start-up. */
  datatype Config = Config(account: string, email: string, password: string)

  /** The marker of a re-rendered login form, i.e. of rejected credentials. */
  const LoginFormMarker: string := "login_email"
  const LoginFailedMessage: string := "Login Failed"
  const ReturnTo: string := "https://rpm.newrelic.com/auth/newrelic"

  /** The login probe: a GET of the account page that must not follow redirects. */
  const ProbeRequest: Request := Request(GET, AccountProbe, map["allow_redirects" := Bool(false)])

  /** The first step of the login handshake: fetching the login form. */
  const LoginFormRequest: Request := Request(GET, LoginPage, map[])

  /** The login form fields, with the scraped token as one of them. */
  function LoginForm(cfg: Config, token: string): map<string, Value>
  {
    map[
      "login[email]" := Str(cfg.email),
      "login[password]" := Str(cfg.password),
      "login[remember_me]" := Str("1"),
      "return_to" := Str(ReturnTo),
      "utf8" := Str("\U{2713}"),
      "authenticity_token" := Str(token),
      "commit" := Str("Sign in")]
  }

  /** The credentials post, as forwarded once the opt-out flag has been popped. */
  function LoginPostRequest(cfg: Config, token: string): Request
  {
    Request(POST, LoginPage, map["data" := Dict(LoginForm(cfg, token))])
  }

  /** `check_if_logged_in`: true only for 200, false for any other non-error status. */
  function CheckIfLoggedIn(s: Session, net: Net): (r: Step<bool>)
    ensures r.session.sent == s.sent + [ProbeRequest]
    ensures var resp := net(s.sent + [ProbeRequest]);
      && (r.result.Err? <==> IsHttpError(resp))
      && (r.result.Err? ==> r.result.error == HTTPError(resp.status))
      && (r.result == Ok(true) <==> resp.status == 200)
    ensures r.session.xsrfToken == StoreXsrfToken(s, net(s.sent + [ProbeRequest])).xsrfToken
    ensures TokenFromAnswers(net, s, r.session)
  {
    var g := Get(s, net, AccountProbe, map["allow_redirects" := Bool(false)]);
    var resp := g.result.value;
    if IsHttpError(resp) then Step(g.session, Err(HTTPError(resp.status)))
    else Step(g.session, Ok(resp.status == 200))
  }

  /**
   `login`: fetch the form, scrape the token, post the credentials without the
   XSRF header, and fail when the answer still shows the login form. A missing
   token is not raised where it is detected (the exception is built and
   dropped); it surfaces as the unbound local `token` before the post.
   */
  function Login(s: Session, net: Net, cfg: Config): (r: Step<()>)
    ensures |r.session.sent| > |s.sent| && r.session.sent[..|s.sent| + 1] == s.sent + [LoginFormRequest]
    ensures var page := net(s.sent + [LoginFormRequest]);
      && (IsHttpError(page) ==> r.result == Err(HTTPError(page.status)) && |r.session.sent| == |s.sent| + 1)
      && (!IsHttpError(page) && ScrapeToken(page.content).None? ==>
            r.result == Err(UnboundLocalError("token")) && |r.session.sent| == |s.sent| + 1)
      && (!IsHttpError(page) && ScrapeToken(page.content).Some? ==>
            var post := LoginPostRequest(cfg, ScrapeToken(page.content).value);
            var answer := net(s.sent + [LoginFormRequest, post]);
            && r.session.sent == s.sent + [LoginFormRequest, post]
            && (r.result.Ok? <==> !IsHttpError(answer) && !Contains(answer.content, LoginFormMarker))
            && (IsHttpError(answer) ==> r.result == Err(HTTPError(answer.status)))
            && (!IsHttpError(answer) && Contains(answer.content, LoginFormMarker) ==>
                  r.result == Err(Raised(LoginFailedMessage))))
    ensures TokenFromAnswers(net, s, r.session)
  {
    var g := Get(s, net, LoginPage, map[]);
    var page := g.result.value;
    if IsHttpError(page) then Step(g.session, Err(HTTPError(page.status)))
    else
      match ScrapeToken(page.content)
      case None => Step(g.session, Err(UnboundLocalError("token")))
      case Some(token) =>
        var p := PostCredentials(g.session, net, cfg, token);
        TokenFromAnswersTrans(net, s, g.session, p.session);
        p
  }

  /**
   The second half of `login`: post the credentials with the opt-out flag set,
   raise on an HTTP error, and fail when the answer still shows the login form.
   */
  function PostCredentials(s: Session, net: Net, cfg: Config, token: string): (r: Step<()>)
    ensures var post := LoginPostRequest(cfg, token);
      var answer := net(s.sent + [post]);
      && r.session.sent == s.sent + [post]
      && (r.result.Ok? <==> !IsHttpError(answer) && !Contains(answer.content, LoginFormMarker))
      && (IsHttpError(answer) ==> r.result == Err(HTTPError(answer.status)))
      && (!IsHttpError(answer) && Contains(answer.content, LoginFormMarker) ==>
            r.result == Err(Raised(LoginFailedMessage)))
    ensures TokenFromAnswers(net, s, r.session)
  {
    var kwargs := map["data" := Dict(LoginForm(cfg, token)), FlagArg := Bool(false)];
    assert kwargs - {FlagArg} == LoginPostRequest(cfg, token).kwargs;
    var p := Post(s, net, LoginPage, kwargs);
    match p.result
    case Err(e) => Step(p.session, Err(e))
    case Ok(answer) =>
      if IsHttpError(answer) then Step(p.session, Err(HTTPError(answer.status)))
      else if Contains(answer.content, LoginFormMarker) then Step(p.session, Err(Raised(LoginFailedMessage)))
      else Step(p.session, Ok(()))
  }

  /** The credentials post never carries an `X-XSRF-TOKEN` header, and carries the scraped token in its form. */
  lemma LoginPostHasNoXsrfHeader(cfg: Config, token: string)
    ensures HeadersArg !in LoginPostRequest(cfg, token).kwargs
    ensures LoginPostRequest(cfg, token).kwargs["data"].entries["authenticity_token"] == Str(token)
  {
  }

  /**
   The prologue of `requires_login`: probe, and log in only when the probe says
   no. A failing probe is raised; a 200 ends the guard after the probe; any
   other status runs the login on the session the probe left.
   */
  function EnsureLoggedIn(s: Session, net: Net, cfg: Config): (r: Step<()>)
    ensures s.sent + [ProbeRequest] <= r.session.sent
    ensures var probe := net(s.sent + [ProbeRequest]);
      && (IsHttpError(probe) ==>
            r.session.sent == s.sent + [ProbeRequest] && r.result == Err(HTTPError(probe.status)))
      && (!IsHttpError(probe) && probe.status == 200 ==>
            r.session.sent == s.sent + [ProbeRequest] && r.result == Ok(()))
      && (!IsHttpError(probe) && probe.status != 200 ==> r == Login(CheckIfLoggedIn(s, net).session, net, cfg))
    ensures TokenFromAnswers(net, s, r.session)
  {
    var c := CheckIfLoggedIn(s, net);
    TokenFromAnswersTrans(net, s, c.session, Login(c.session, net, cfg).session);
    match c.result
    case Err(e) => Step(c.session, Err(e))
    case Ok(loggedIn) => if loggedIn then Step(c.session, Ok(())) else Login(c.session, net, cfg)
  }

  /**
   The guard issues the probe first, and starts the login handshake right
   after it exactly when the probe returned false; when the probe returned
   true it sends nothing else.
   */
  lemma LoginExactlyWhenProbeFails(s: Session, net: Net, cfg: Config)
    ensures var c := CheckIfLoggedIn(s, net);
      var g := EnsureLoggedIn(s, net, cfg);
      && |g.session.sent| > |s.sent|
      && g.session.sent[..|s.sent| + 1] == s.sent + [ProbeRequest]
      && (|g.session.sent| > |s.sent| + 1 <==> c.result == Ok(false))
      && (c.result == Ok(false) ==> g.session.sent[|s.sent| + 1] == LoginFormRequest)
      && (c.result == Ok(true) ==> g == Step(c.session, Ok(())))
  {
    var c := CheckIfLoggedIn(s, net);
    var g := EnsureLoggedIn(s, net, cfg);
    if c.result == Ok(false) {
      assert g == Login(c.session, net, cfg);
      assert g.session.sent[..|c.session.sent| + 1] == c.session.sent + [LoginFormRequest];
      assert g.session.sent[|s.sent| + 1] == g.session.sent[..|c.session.sent| + 1][|s.sent| + 1];
    }
    assert g.session.sent[..|s.sent| + 1] == g.session.sent[..|c.session.sent|];
  }

  /**
   The session the guard hands to the wrapped operation holds the token of the
   last of its responses (probe, login form, credentials answer) that offered
   one, or the token it started with when none did.
   */
  lemma GuardLeavesLatestToken(s: Session, net: Net, cfg: Config)
    ensures var g := EnsureLoggedIn(s, net, cfg);
      var answers := AnswersFrom(net, g.session.sent, |s.sent|);
      && g.session.xsrfToken == (if LastOffered(answers).Some? then LastOffered(answers) else s.xsrfToken)
      && |answers| == |g.session.sent| - |s.sent|
  {
    var g := EnsureLoggedIn(s, net, cfg);
    StoreAllKeepsLatest(s, AnswersFrom(net, g.session.sent, |s.sent|));
    AnswersFromLength(net, g.session.sent, |s.sent|);
  }

  /** `requires_login`: the wrapped operation runs on the session the guard leaves, unless the guard raised. */
  function RequiresLogin<T>(s: Session, net: Net, cfg: Config, body: Session -> Step<T>): (r: Step<T>)
    ensures var g := EnsureLoggedIn(s, net, cfg);
      && (g.result.Ok? ==> r == body(g.session))
      && (g.result.Err? ==> r == Step(g.session, Err(g.result.error)))
  {
    var g := EnsureLoggedIn(s, net, cfg);
    match g.result
    case Err(e) => Step(g.session, Err(e))
    case Ok(_) => body(g.session)
  }

  /** `response.json()` of a response that passed `raise_for_status`. */
  function FetchJson(s: Session, net: Net, url: Url): (r: Step<Value>)
    ensures r.session.sent == s.sent + [Request(GET, url, map[])]
    ensures var resp := net(r.session.sent);
      && (IsHttpError(resp) ==> r.result == Err(HTTPError(resp.status)))
      && (!IsHttpError(resp) && resp.json.None? ==> r.result == Err(ValueError))
      && (!IsHttpError(resp) && resp.json.Some? ==> r.result == Ok(resp.json.value))
    ensures r.session.xsrfToken == StoreXsrfToken(s, net(r.session.sent)).xsrfToken
    ensures TokenFromAnswers(net, s, r.session)
  {
    var g := Get(s, net, url, map[]);
    var resp := g.result.value;
    if IsHttpError(resp) then Step(g.session, Err(HTTPError(resp.status)))
    else
      match resp.json
      case None => Step(g.session, Err(ValueError))
      case Some(v) => Step(g.session, Ok(v))
  }

  /**
   After the guard, a decorated operation that fetches a JSON document sends
   one GET of `url` and returns the decoded document, or raises.
   */
  ghost predicate GuardedFetch(s: Session, net: Net, cfg: Config, url: Url, r: Step<Value>)
  {
    var g := EnsureLoggedIn(s, net, cfg);
    && (g.result.Err? ==> r == Step(g.session, Err(g.result.error)))
    && (g.result.Ok? ==>
          && r.session.sent == g.session.sent + [Request(GET, url, map[])]
          && var resp := net(r.session.sent);
             && (IsHttpError(resp) ==> r.result == Err(HTTPError(resp.status)))
             && (!IsHttpError(resp) && resp.json.None? ==> r.result == Err(ValueError))
             && (!IsHttpError(resp) && resp.json.Some? ==> r.result == Ok(resp.json.value)))
  }

  /** `get_monitor`: the decoded monitor document. */
  function GetMonitor(s: Session, net: Net, cfg: Config, monitor: Value): (r: Step<Value>)
    ensures GuardedFetch(s, net, cfg, MonitorJson(monitor), r)
    ensures TokenFromAnswers(net, s, r.session)
  {
    var g := EnsureLoggedIn(s, net, cfg);
    TokenFromAnswersTrans(net, s, g.session, FetchJson(g.session, net, MonitorJson(monitor)).session);
    RequiresLogin(s, net, cfg, (s': Session) => FetchJson(s', net, MonitorJson(monitor)))
  }

  /** `get_locations`: the decoded location listing. */
  function GetLocations(s: Session, net: Net, cfg: Config): (r: Step<Value>)
    ensures GuardedFetch(s, net, cfg, MonitorLocations, r)
    ensures TokenFromAnswers(net, s, r.session)
  {
    var g := EnsureLoggedIn(s, net, cfg);
    TokenFromAnswersTrans(net, s, g.session, FetchJson(g.session, net, MonitorLocations).session);
    RequiresLogin(s, net, cfg, (s': Session) => FetchJson(s', net, MonitorLocations))
  }

  /** The sort key: the record's `name` when it is a string. */
  function NameOf(v: Value): string
  {
    if v.Dict? && "name" in v.entries && v.entries["name"].Str? then v.entries["name"].s else ""
  }

  /** `x['name']` can be evaluated: `x` is a dictionary holding the key. */
  predicate HasNameField(v: Value)
  {
    v.Dict? && "name" in v.entries
  }

  /** The exception `x['name']` raises, if any. */
  function SubscriptError(v: Value): (r: Option<Error>)
    ensures r.None? <==> HasNameField(v)
  {
    if !v.Dict? then Some(TypeError)
    else if "name" !in v.entries then Some(KeyError("name"))
    else None
  }

  /** The first exception the keys raise, computed in list order before any comparison. */
  function FirstSubscriptError(items: seq<Value>): (r: Option<Error>)
    ensures r.None? <==> forall i :: 0 <= i < |items| ==> HasNameField(items[i])
    ensures r.Some? ==> exists i :: 0 <= i < |items| && AllNamedBefore(items, i) && SubscriptError(items[i]) == r
    decreases |items|
  {
    if items == [] then None
    else if SubscriptError(items[0]).Some? then
      assert AllNamedBefore(items, 0);
      SubscriptError(items[0])
    else
      var rest := FirstSubscriptError(items[1..]);
      assert forall i :: 1 <= i < |items| ==> items[i] == items[1..][i - 1];
      if rest.Some? then
        var i :| 0 <= i < |items[1..]| && AllNamedBefore(items[1..], i) && SubscriptError(items[1..][i]) == rest;
        assert AllNamedBefore(items, i + 1);
        rest
      else rest
  }

  /** Every record before index `i` can be subscripted with `'name'`. */
  predicate AllNamedBefore(items: seq<Value>, i: int)
    requires 0 <= i < |items|
  {
    forall j :: 0 <= j < i ==> HasNameField(items[j])
  }

  /** Every record's name is a string, so the names can be ordered. */
  predicate NamesAreStrings(items: seq<Value>)
  {
    forall i :: 0 <= i < |items| ==> HasNameField(items[i]) && items[i].entries["name"].Str?
  }

  /**
   `sorted(data, key=lambda x: x['name'])` on the decoded listing. A list is
   sorted; an empty dictionary or string iterates to nothing; any other
   document raises while its elements are subscripted or iterated.
   */
  function SortMonitors(data: Value): (r: Result<seq<Value>, Error>)
    ensures data.List? && NamesAreStrings(data.items) ==>
      && r.Ok?
      && multiset(r.value) == multiset(data.items)
      && SortedBy(r.value, NameOf)
      && (forall n :: WithKey(r.value, NameOf, n) == WithKey(data.items, NameOf, n))
    ensures data.List? && FirstSubscriptError(data.items).Some? ==> r == Err(FirstSubscriptError(data.items).value)
    ensures data.List? && FirstSubscriptError(data.items).None? && !NamesAreStrings(data.items) ==> r == Err(TypeError)
    ensures !data.List? ==> r == (if data == Dict(map[]) || data == Str("") then Ok([]) else Err(TypeError))
  {
    match data
    case List(items) =>
      (match FirstSubscriptError(items)
       case Some(e) => Err(e)
       case None =>
         if forall i :: 0 <= i < |items| ==> items[i].entries["name"].Str? then Ok(SortBy(items, NameOf))
         else Err(TypeError))
    case Dict(m) => if m == map[] then Ok([]) else Err(TypeError)
    case Str(x) => if x == "" then Ok([]) else Err(TypeError)
    case _ => Err(TypeError)
  }

  /** `get_monitors`: the listing is fetched only once the guard has returned. */
  function GetMonitors(s: Session, net: Net, cfg: Config): (r: Step<seq<Value>>)
    ensures var g := EnsureLoggedIn(s, net, cfg);
      && (g.result.Err? ==> r == Step(g.session, Err(g.result.error)))
      && (g.result.Ok? ==> ListingFetched(g.session, net, r))
    ensures TokenFromAnswers(net, s, r.session)
  {
    var g := EnsureLoggedIn(s, net, cfg);
    TokenFromAnswersTrans(net, s, g.session, GetMonitorsBody(g.session, net).session);
    RequiresLogin(s, net, cfg, (s': Session) => GetMonitorsBody(s', net))
  }

  /** One GET of the listing; an HTTP error or a body that is not JSON raises; a document is sorted. */
  ghost predicate ListingFetched(s: Session, net: Net, r: Step<seq<Value>>)
  {
    && r.session.sent == s.sent + [Request(GET, Monitors, map[])]
    && var resp := net(r.session.sent);
       && (IsHttpError(resp) ==> r.result == Err(HTTPError(resp.status)))
       && (!IsHttpError(resp) && resp.json.None? ==> r.result == Err(ValueError))
       && (!IsHttpError(resp) && resp.json.Some? ==> r.result == SortMonitors(resp.json.value))
  }

  /** The body of `get_monitors`. */
  function GetMonitorsBody(s: Session, net: Net): (r: Step<seq<Value>>)
    ensures ListingFetched(s, net, r)
    ensures TokenFromAnswers(net, s, r.session)
  {
    var f := FetchJson(s, net, Monitors);
    match f.result
    case Err(e) => Step(f.session, Err(e))
    case Ok(data) => Step(f.session, SortMonitors(data))
  }

  /**
   A listing of records with string names comes back as a permutation of the
   fetched list, ordered by name, with records of equal name in fetched order.
   */
  lemma GetMonitorsSortsStably(s: Session, net: Net)
    requires var resp := net(s.sent + [Request(GET, Monitors, map[])]);
      !IsHttpError(resp) && resp.json.Some? && resp.json.value.List? && NamesAreStrings(resp.json.value.items)
    ensures var r := GetMonitorsBody(s, net);
      var fetched := net(s.sent + [Request(GET, Monitors, map[])]).json.value.items;
      && r.session.sent == s.sent + [Request(GET, Monitors, map[])]
      && r.result.Ok?
      && multiset(r.result.value) == multiset(fetched)
      && SortedBy(r.result.value, NameOf)
      && (forall n :: WithKey(r.result.value, NameOf, n) == WithKey(fetched, NameOf, n))
  {
  }

  /** The referring page's address, sent as the `Referer` header. */
  function RefererHeaders(page: Response): map<string, Value>
  {
    map["Referer" := Str(page.url)]
  }

  /**
   The body of `delete_monitor`: fetch the monitor to obtain a referrer, then
   delete it. A failing GET is raised; without a token the DELETE cannot be
   built; otherwise the DELETE's own answer decides the result.
   */
  function DeleteMonitorBody(s: Session, net: Net, monitor: Value): (r: Step<()>)
    ensures var fetch := Request(GET, MonitorJson(monitor), map[]);
      var page := net(s.sent + [fetch]);
      && s.sent + [fetch] <= r.session.sent
      && (IsHttpError(page) ==>
            r.session.sent == s.sent + [fetch] && r.result == Err(HTTPError(page.status)))
      && (!IsHttpError(page) && StoreXsrfToken(s, page).xsrfToken.None? ==>
            r.session.sent == s.sent + [fetch] && r.result == Err(AttributeError("xsrf_token")))
      && (!IsHttpError(page) && StoreXsrfToken(s, page).xsrfToken.Some? ==>
            && |r.session.sent| == |s.sent| + 2
            && (r.result.Ok? <==> !IsHttpError(net(r.session.sent)))
            && (IsHttpError(net(r.session.sent)) ==> r.result == Err(HTTPError(net(r.session.sent).status))))
    ensures TokenFromAnswers(net, s, r.session)
  {
    var g := Get(s, net, MonitorJson(monitor), map[]);
    var page := g.result.value;
    if IsHttpError(page) then Step(g.session, Err(HTTPError(page.status)))
    else
      var d := Delete(g.session, net, MonitorJson(monitor), map[HeadersArg := Dict(RefererHeaders(page))]);
      TokenFromAnswersTrans(net, s, g.session, d.session);
      match d.result
      case Err(e) => Step(d.session, Err(e))
      case Ok(resp) => if IsHttpError(resp) then Step(d.session, Err(HTTPError(resp.status))) else Step(d.session, Ok(()))
  }

  /** `delete_monitor`: the body runs on the session the guard leaves, after the guard's requests. */
  function DeleteMonitor(s: Session, net: Net, cfg: Config, monitor: Value): (r: Step<()>)
    ensures var g := EnsureLoggedIn(s, net, cfg);
      && g.session.sent <= r.session.sent
      && (g.result.Err? ==> r == Step(g.session, Err(g.result.error)))
      && (g.result.Ok? ==> r == DeleteMonitorBody(g.session, net, monitor))
    ensures TokenFromAnswers(net, s, r.session)
  {
    var g := EnsureLoggedIn(s, net, cfg);
    TokenFromAnswersTrans(net, s, g.session, DeleteMonitorBody(g.session, net, monitor).session);
    RequiresLogin(s, net, cfg, (s': Session) => DeleteMonitorBody(s', net, monitor))
  }

  /**
   A delete is preceded by a GET of the same monitor. When that GET fails, or no
   token is known after it, nothing else is sent. Otherwise the DELETE carries
   that page's address as `Referer` and the token as it stood after the GET's
   response was stored, and its own answer decides the result.
   */
  lemma DeleteTrace(s: Session, net: Net, monitor: Value)
    ensures var fetch := Request(GET, MonitorJson(monitor), map[]);
      var page := net(s.sent + [fetch]);
      var token := StoreXsrfToken(s, page).xsrfToken;
      var r := DeleteMonitorBody(s, net, monitor);
      && (IsHttpError(page) ==> r.session.sent == s.sent + [fetch] && r.result == Err(HTTPError(page.status)))
      && (!IsHttpError(page) && token.None? ==>
            r.session.sent == s.sent + [fetch] && r.result == Err(AttributeError("xsrf_token")))
      && (!IsHttpError(page) && token.Some? ==>
            && |r.session.sent| == |s.sent| + 2
            && r.session.sent[..|s.sent| + 1] == s.sent + [fetch]
            && LastSent(r.session).verb == DELETE
            && LastSent(r.session).url == MonitorJson(monitor)
            && CallerHeaders(LastSent(r.session).kwargs) ==
                 map["Referer" := Str(page.url), XsrfHeader := Str(token.value)]
            && (r.result.Ok? <==> !IsHttpError(net(r.session.sent))))
  {
    var g := Get(s, net, MonitorJson(monitor), map[]);
    var page := g.result.value;
    if !IsHttpError(page) && g.session.xsrfToken.Some? {
      RefererDelete(g.session, net, MonitorJson(monitor), page);
      var d := Delete(g.session, net, MonitorJson(monitor), map[HeadersArg := Dict(RefererHeaders(page))]);
      assert DeleteMonitorBody(s, net, monitor).session == d.session;
    }
  }

  /** With a token, the referred DELETE is sent once and carries exactly `Referer` and the token. */
  lemma RefererDelete(t: Session, net: Net, url: Url, page: Response)
    requires t.xsrfToken.Some?
    ensures var d := Delete(t, net, url, map[HeadersArg := Dict(RefererHeaders(page))]);
      && d.result.Ok?
      && |d.session.sent| == |t.sent| + 1
      && d.session.sent[..|t.sent|] == t.sent
      && LastSent(d.session).verb == DELETE
      && LastSent(d.session).url == url
      && CallerHeaders(LastSent(d.session).kwargs) == map["Referer" := Str(page.url), XsrfHeader := Str(t.xsrfToken.value)]
  {
    var kw := SetXsrfHeaders(t, map[HeadersArg := Dict(RefererHeaders(page))]).value;
    assert CallerHeaders(kw).Keys == {"Referer", XsrfHeader};
  }

  /**
   The body of `create_monitor`: normalise, check the bypass rule locally,
   fetch the creation page for its address, then post the payload. A broken
   rule raises before any request; a failing GET is raised; without a token
   the post cannot be built; otherwise the post's answer is mapped to
   `(code, detail)`.
   */
  function CreateMonitorBody(s: Session, net: Net, cfg: Config, args: CreateArgs): (r: Step<CreateOutcome>)
    ensures ViolatesBypassRule(Normalise(args)) ==> r == Step(s, Err(Raised(ValidationMessage)))
    ensures var fetch := Request(GET, NewMonitor, map[]);
      var page := net(s.sent + [fetch]);
      !ViolatesBypassRule(Normalise(args)) ==>
      && s.sent + [fetch] <= r.session.sent
      && (IsHttpError(page) ==>
            r.session.sent == s.sent + [fetch] && r.result == Err(HTTPError(page.status)))
      && (!IsHttpError(page) && StoreXsrfToken(s, page).xsrfToken.None? ==>
            r.session.sent == s.sent + [fetch] && r.result == Err(AttributeError("xsrf_token")))
      && (!IsHttpError(page) && StoreXsrfToken(s, page).xsrfToken.Some? ==>
            |r.session.sent| == |s.sent| + 2 && r.result == CreationResult(net(r.session.sent)))
    ensures TokenFromAnswers(net, s, r.session)
  {
    var a := Normalise(args);
    if ViolatesBypassRule(a) then
      TokenFromNoAnswers(net, s);
      Step(s, Err(Raised(ValidationMessage)))
    else
      var g := Get(s, net, NewMonitor, map[]);
      var page := g.result.value;
      if IsHttpError(page) then Step(g.session, Err(HTTPError(page.status)))
      else
        var p := Post(g.session, net, Monitors, CreationKwargs(cfg, a, page));
        TokenFromAnswersTrans(net, s, g.session, p.session);
        match p.result
        case Err(e) => Step(p.session, Err(e))
        case Ok(resp) => Step(p.session, CreationResult(resp))
  }

  /** The arguments of the creation post: the JSON payload and the referrer and content-type headers. */
  function CreationKwargs(cfg: Config, a: CreateArgs, page: Response): Kwargs
  {
    JsonPostKwargs(Dict(Payload(cfg.account, a)), page.url)
  }

  function JsonPostKwargs(data: Value, referer: string): Kwargs
  {
    map[
      "data" := data,
      HeadersArg := Dict(map["Referer" := Str(referer), "Content-Type" := Str("application/json;charset=utf-8")])]
  }

  /** `create_monitor`: the body runs on the session the guard leaves, after the guard's requests. */
  function CreateMonitor(s: Session, net: Net, cfg: Config, args: CreateArgs): (r: Step<CreateOutcome>)
    ensures var g := EnsureLoggedIn(s, net, cfg);
      && g.session.sent <= r.session.sent
      && (g.result.Err? ==> r == Step(g.session, Err(g.result.error)))
      && (g.result.Ok? ==> r == CreateMonitorBody(g.session, net, cfg, args))
    ensures TokenFromAnswers(net, s, r.session)
  {
    var g := EnsureLoggedIn(s, net, cfg);
    TokenFromAnswersTrans(net, s, g.session, CreateMonitorBody(g.session, net, cfg, args).session);
    RequiresLogin(s, net, cfg, (s': Session) => CreateMonitorBody(s', net, cfg, args))
  }

  /**
   A validation string without the HEAD bypass is rejected before the
   operation issues any request of its own: the only requests sent are the
   login guard's.
   */
  lemma NoRequestBeforeValidation(s: Session, net: Net, cfg: Config, args: CreateArgs)
    requires Truthy(args.validationString) && !Truthy(args.bypassHeadRequest)
    ensures CreateMonitorBody(s, net, cfg, args) == Step(s, Err(Raised(ValidationMessage)))
    ensures var g := EnsureLoggedIn(s, net, cfg);
      var r := CreateMonitor(s, net, cfg, args);
      && r.session == g.session
      && r.result == Err(if g.result.Err? then g.result.error else Raised(ValidationMessage))
  {
  }

  /**
   A creation that passes the local rule first sends a GET of the creation
   page. When that GET fails, or no token is known after it, no POST is sent.
   Otherwise exactly one POST of the payload follows, whose headers carry that
   page's address, the JSON content type and the token current after the GET.
   */
  lemma CreateTrace(s: Session, net: Net, cfg: Config, args: CreateArgs)
    ensures ViolatesBypassRule(Normalise(args)) ==> CreateMonitorBody(s, net, cfg, args).session.sent == s.sent
    ensures var fetch := Request(GET, NewMonitor, map[]);
      var page := net(s.sent + [fetch]);
      var r := CreateMonitorBody(s, net, cfg, args);
      !ViolatesBypassRule(Normalise(args)) && (IsHttpError(page) || StoreXsrfToken(s, page).xsrfToken.None?) ==>
      r.session.sent == s.sent + [fetch]
    ensures var fetch := Request(GET, NewMonitor, map[]);
      var page := net(s.sent + [fetch]);
      var token := StoreXsrfToken(s, page).xsrfToken;
      var r := CreateMonitorBody(s, net, cfg, args);
      !ViolatesBypassRule(Normalise(args)) && !IsHttpError(page) && token.Some? ==>
      && |r.session.sent| == |s.sent| + 2
      && r.session.sent[..|s.sent| + 1] == s.sent + [fetch]
      && LastSent(r.session).verb == POST
      && LastSent(r.session).url == Monitors
      && "data" in LastSent(r.session).kwargs
      && LastSent(r.session).kwargs["data"] == Dict(Payload(cfg.account, Normalise(args)))
      && CallerHeaders(LastSent(r.session).kwargs) == map[
           "Referer" := Str(page.url),
           "Content-Type" := Str("application/json;charset=utf-8"),
           XsrfHeader := Str(token.value)]
      && r.result == CreationResult(net(r.session.sent))
  {
    var g := Get(s, net, NewMonitor, map[]);
    var page := g.result.value;
    if !ViolatesBypassRule(Normalise(args)) && !IsHttpError(page) && g.session.xsrfToken.Some? {
      var a := Normalise(args);
      var kwargs := CreationKwargs(cfg, a, page);
      var kw := SetXsrfHeaders(g.session, kwargs).value;
      CreationKwargsMerged(g.session, cfg, a, page);
      var r := CreateMonitorBody(s, net, cfg, args);
      assert r.session.sent == g.session.sent + [Request(POST, Monitors, kw)];
      assert r.session.sent[..|s.sent| + 1] == g.session.sent;
    }
  }

  /** The creation arguments after the XSRF merge: the payload untouched, three headers. */
  lemma CreationKwargsMerged(s: Session, cfg: Config, a: CreateArgs, page: Response)
    requires s.xsrfToken.Some?
    ensures var kwargs := CreationKwargs(cfg, a, page);
      && kwargs - {FlagArg} == kwargs
      && SetXsrfHeaders(s, kwargs).Ok?
      && SetXsrfHeaders(s, kwargs).value["data"] == Dict(Payload(cfg.account, a))
      && CallerHeaders(SetXsrfHeaders(s, kwargs).value) == map[
           "Referer" := Str(page.url),
           "Content-Type" := Str("application/json;charset=utf-8"),
           XsrfHeader := Str(s.xsrfToken.value)]
  {
    JsonPostMerged(s, Dict(Payload(cfg.account, a)), page.url);
  }

  lemma JsonPostMerged(s: Session, data: Value, referer: string)
    requires s.xsrfToken.Some?
    ensures var kwargs := JsonPostKwargs(data, referer);
      && kwargs - {FlagArg} == kwargs
      && SetXsrfHeaders(s, kwargs).Ok?
      && SetXsrfHeaders(s, kwargs).value["data"] == data
      && CallerHeaders(SetXsrfHeaders(s, kwargs).value) == map[
           "Referer" := Str(referer),
           "Content-Type" := Str("application/json;charset=utf-8"),
           XsrfHeader := Str(s.xsrfToken.value)]
  {
    var kwargs := JsonPostKwargs(data, referer);
    assert kwargs - {FlagArg} == kwargs;
    var h := CallerHeaders(SetXsrfHeaders(s, kwargs).value);
    assert h.Keys == {"Referer", "Content-Type", XsrfHeader};
  }
}

=== FILE: scrape.dfy ===
/**
 The login-page scrape of neres/newrelic.py: `re.search` with the pattern
 `name="authenticity_token" value="(.+?)"`, returning the first group. `.`
 matches any character but a newline and `+?` is the shortest repetition, so
 the group is found at the leftmost position where the literal prefix is
 followed by at least one non-newline character and then a double quote.
 */
module Scrape {
  import opened Wrappers
  import opened Strings

  const TokenPrefix: string := "name=\"authenticity_token\" value=\""

  /** The pattern's literal prefix starts at index `i` of `c`. */
  predicate PrefixAt(c: string, i: int)
  {
    0 <= i && i + |TokenPrefix| <= |c| && c[i..i + |TokenPrefix|] == TokenPrefix
  }

  /** The group `(.+?)` can span the `k` characters from `start` and be closed by a `"`. */
  predicate ClosesAt(c: string, start: int, k: int)
  {
    && 0 <= start
    && 1 <= k
    && start + k < |c|
    && c[start + k] == '"'
    && forall m :: start <= m < start + k ==> c[m] != '\n'
  }

  /** The whole pattern matches at `i` with a group of length `k`. */
  predicate MatchAt(c: string, i: int, k: int)
  {
    PrefixAt(c, i) && ClosesAt(c, i + |TokenPrefix|, k)
  }

  /** The match `re.search` reports: the leftmost start, then the shortest group there. */
  ghost predicate IsFirstMatch(c: string, i: int, k: int)
  {
    && MatchAt(c, i, k)
    && (forall i', k' :: 0 <= i' < i ==> !MatchAt(c, i', k'))
    && (forall k' :: k' < k ==> !MatchAt(c, i, k'))
  }

  /** The group text of the match at `i` with length `k`. */
  function Group(c: string, i: int, k: int): string
    requires MatchAt(c, i, k)
  {
    c[i + |TokenPrefix| .. i + |TokenPrefix| + k]
  }

  /**
   The shortest group from `start`, trying the closing quote at index `j`;
   every shorter group was already rejected and holds no newline.
   */
  function ShortestClose(c: string, start: nat, j: nat): (r: Option<nat>)
    requires start < j
    requires forall k :: 1 <= k < j - start ==> !ClosesAt(c, start, k)
    requires forall m :: start <= m < j - 1 ==> m < |c| && c[m] != '\n'
    ensures r.Some? ==> ClosesAt(c, start, r.value) && forall k :: k < r.value ==> !ClosesAt(c, start, k)
    ensures r.None? ==> forall k :: !ClosesAt(c, start, k)
    decreases |c| + 1 - j
  {
    if j > |c| then None
    else if c[j - 1] == '\n' then None
    else if j < |c| && c[j] == '"' then Some(j - start)
    else if j == |c| then None
    else ShortestClose(c, start, j + 1)
  }

  /** The leftmost match at or after index `i`, as (start, group length). */
  function Search(c: string, i: nat): (r: Option<(nat, nat)>)
    ensures r.Some? ==>
      && i <= r.value.0
      && MatchAt(c, r.value.0, r.value.1)
      && (forall i', k :: i <= i' < r.value.0 ==> !MatchAt(c, i', k))
      && (forall k :: k < r.value.1 ==> !MatchAt(c, r.value.0, k))
    ensures r.None? ==> forall i', k :: i <= i' ==> !MatchAt(c, i', k)
    decreases |c| - i
  {
    if i + |TokenPrefix| > |c| then None
    else if PrefixAt(c, i) then
      match ShortestClose(c, i + |TokenPrefix|, i + |TokenPrefix| + 1)
      case Some(k) => Some((i, k))
      case None => Search(c, i + 1)
    else Search(c, i + 1)
  }

  /** `re.search(...).groups()[0]`, or `None` when the pattern does not occur. */
  function ScrapeToken(c: string): (r: Option<string>)
    ensures r.None? <==> forall i, k :: !MatchAt(c, i, k)
    ensures r.Some? ==> exists i, k :: IsFirstMatch(c, i, k) && r.value == Group(c, i, k)
  {
    match Search(c, 0)
    case None => None
    case Some((i, k)) =>
      assert IsFirstMatch(c, i, k);
      Some(Group(c, i, k))
  }

  /** The group of the first match has the shape the shortest repetition forces. */
  lemma FirstGroupShape(c: string, i: int, k: int)
    requires IsFirstMatch(c, i, k)
    ensures var t := Group(c, i, k);
      && t != ""
      && (forall m :: 0 <= m < |t| ==> t[m] != '\n')
      && (forall m :: 1 <= m < |t| ==> t[m] != '"')
      && c[i .. i + |TokenPrefix| + k + 1] == TokenPrefix + t + "\""
  {
    var t := Group(c, i, k);
    var start := i + |TokenPrefix|;
    assert forall m :: 0 <= m < |t| ==> t[m] == c[start + m];
    forall m | 1 <= m < |t|
      ensures t[m] != '"'
    {
      assert !MatchAt(c, i, m);
      assert !ClosesAt(c, start, m);
      assert forall q :: start <= q < start + m ==> c[q] != '\n';
    }
  }

  /**
   A scraped token is non-empty, holds no newline, and holds no `"` except
   possibly as its first character; the page contains it between the prefix
   and a closing quote.
   */
  lemma ScrapedTokenShape(c: string)
    requires ScrapeToken(c).Some?
    ensures var t := ScrapeToken(c).value;
      && t != ""
      && (forall m :: 0 <= m < |t| ==> t[m] != '\n')
      && (forall m :: 1 <= m < |t| ==> t[m] != '"')
      && Contains(c, TokenPrefix + t + "\"")
  {
    var t := ScrapeToken(c).value;
    var i, k :| IsFirstMatch(c, i, k) && t == Group(c, i, k);
    FirstGroupShape(c, i, k);
    ContainsSlice(c, i, TokenPrefix + t + "\"");
  }

  lemma {:induction false} ContainsSlice(s: string, i: nat, sub: string)
    requires i + |sub| <= |s| && s[i .. i + |sub|] == sub
    ensures Contains(s, sub)
    decreases i
  {
    if i == 0 {
      assert sub <= s;
    } else {
      assert s[1..][i - 1 .. i - 1 + |sub|] == sub;
      ContainsSlice(s[1..], i - 1, sub);
    }
  }

  /** A page without the pattern yields no token. */
  lemma NoPrefixNoToken(c: string)
    requires !Contains(c, TokenPrefix)
    ensures ScrapeToken(c).None?
  {
    forall i, k | MatchAt(c, i, k)
      ensures false
    {
      ContainsSlice(c, i, TokenPrefix);
    }
  }

  /** The shortest group may begin with a quote: `value=""x"` yields the token `"x`. */
  lemma QuoteMayLeadToken()
    ensures ScrapeToken(TokenPrefix + "\"x\"") == Some("\"x")
  {
    var c := TokenPrefix + "\"x\"";
    var p := |TokenPrefix|;
    assert c[..p] == TokenPrefix;
    assert c[p] == '"' && c[p + 1] == 'x' && c[p + 2] == '"';
    assert MatchAt(c, 0, 2);
    assert ScrapeToken(c).Some?;
    var i, k :| IsFirstMatch(c, i, k) && ScrapeToken(c).value == Group(c, i, k);
    assert i == 0;
    assert !ClosesAt(c, p, 1);
    assert k == 2;
    assert Group(c, i, k) == "\"x";
  }
}

=== FILE: session.dfy ===
/**
 The HTTP session of neres/session.py: a transport wrapper that remembers the
 anti-forgery token the server hands out in the `XSRF-TOKEN` cookie and replays
 it in the `X-XSRF-TOKEN` header of mutating requests.
 */
module Session {
  import opened Wrappers
  import opened Values
  import opened Http

  const XsrfCookie: string := "XSRF-TOKEN"
  const XsrfHeader: string := "X-XSRF-TOKEN"
  const HeadersArg: string := "headers"
  const FlagArg: string := "add_xsrf_token"

  /**
   The session state: the stored token (`None` while the attribute has never
   been assigned) and every request handed to the transport so far, in order.
   */
  datatype Session = Session(xsrfToken: Option<string>, sent: seq<Request>)

  /** The session after a call, whether the call returned or raised. */
  datatype Step<+T> = Step(session: Session, result: Result<T, Error>)

  /** The token a response offers: its `XSRF-TOKEN` cookie, when that is a non-empty string. */
  function OfferedToken(resp: Response): Option<string>
  {
    if XsrfCookie in resp.cookies && resp.cookies[XsrfCookie] != "" then Some(resp.cookies[XsrfCookie]) else None
  }

  /** A stored token is never the empty string. */
  predicate TokenWellFormed(s: Session)
  {
    s.xsrfToken.Some? ==> s.xsrfToken.value != ""
  }

  /** `_store_xsrf_token`: only a non-empty cookie replaces the stored token. */
  function StoreXsrfToken(s: Session, resp: Response): (r: Session)
    ensures r.sent == s.sent
    ensures OfferedToken(resp).Some? ==> r.xsrfToken == OfferedToken(resp)
    ensures OfferedToken(resp).None? ==> r.xsrfToken == s.xsrfToken
    ensures TokenWellFormed(s) ==> TokenWellFormed(r)
  {
    var cookie := if XsrfCookie in resp.cookies then resp.cookies[XsrfCookie] else "";
    if cookie != "" then s.(xsrfToken := Some(cookie)) else s
  }

  /** Storing the same response twice is the same as storing it once. */
  lemma StoreIdempotent(s: Session, resp: Response)
    ensures StoreXsrfToken(StoreXsrfToken(s, resp), resp) == StoreXsrfToken(s, resp)
  {
  }

  /** The token stored after a run of responses, processed in order. */
  function StoreAll(s: Session, resps: seq<Response>): Session
    decreases |resps|
  {
    if resps == [] then s else StoreAll(StoreXsrfToken(s, resps[0]), resps[1..])
  }

  /** Reference definition: the token offered by the LAST response that offers one. */
  function LastOffered(resps: seq<Response>): Option<string>
    decreases |resps|
  {
    if resps == [] then None
    else if OfferedToken(resps[|resps| - 1]).Some? then OfferedToken(resps[|resps| - 1])
    else LastOffered(resps[..|resps| - 1])
  }

  lemma {:induction false} StoreAllSnoc(s: Session, resps: seq<Response>, last: Response)
    ensures StoreAll(s, resps + [last]) == StoreXsrfToken(StoreAll(s, resps), last)
    decreases |resps|
  {
    if resps == [] {
      assert resps + [last] == [last];
      assert ([last])[1..] == [];
    } else {
      assert (resps + [last])[0] == resps[0];
      assert (resps + [last])[1..] == resps[1..] + [last];
      StoreAllSnoc(StoreXsrfToken(s, resps[0]), resps[1..], last);
    }
  }

  /**
   After any run of responses the session holds the token of the last response
   that offered one, or its earlier token when none did; the request log is untouched.
   */
  lemma {:induction false} StoreAllKeepsLatest(s: Session, resps: seq<Response>)
    ensures StoreAll(s, resps).sent == s.sent
    ensures StoreAll(s, resps).xsrfToken == (if LastOffered(resps).Some? then LastOffered(resps) else s.xsrfToken)
    decreases |resps|
  {
    if resps != [] {
      var init := resps[..|resps| - 1];
      var last := resps[|resps| - 1];
      assert resps == init + [last];
      StoreAllSnoc(s, init, last);
      StoreAllKeepsLatest(s, init);
    }
  }

  /** Only the token matters to the stored result: two sessions with the same token store alike. */
  lemma {:induction false} StoreAllSameToken(s1: Session, s2: Session, resps: seq<Response>)
    requires s1.xsrfToken == s2.xsrfToken
    ensures StoreAll(s1, resps).xsrfToken == StoreAll(s2, resps).xsrfToken
    decreases |resps|
  {
    if resps != [] {
      StoreAllSameToken(StoreXsrfToken(s1, resps[0]), StoreXsrfToken(s2, resps[0]), resps[1..]);
    }
  }

  /** Storing a run of responses and then another is storing their concatenation. */
  lemma {:induction false} StoreAllAppend(s: Session, xs: seq<Response>, ys: seq<Response>)
    ensures StoreAll(s, xs + ys) == StoreAll(StoreAll(s, xs), ys)
    decreases |xs|
  {
    if xs != [] {
      assert (xs + ys)[0] == xs[0] && (xs + ys)[1..] == xs[1..] + ys;
      StoreAllAppend(StoreXsrfToken(s, xs[0]), xs[1..], ys);
    } else {
      assert xs + ys == ys;
    }
  }

  /**
   The responses the transport gave to the requests `sent[from..]`, each one
   computed from the history up to and including its request.
   */
  ghost function AnswersFrom(net: Net, sent: seq<Request>, from: nat): seq<Response>
    requires from <= |sent|
    decreases |sent| - from
  {
    if from == |sent| then [] else [net(sent[..from + 1])] + AnswersFrom(net, sent, from + 1)
  }

  /** One answer per appended request. */
  lemma {:induction false} AnswersFromLength(net: Net, sent: seq<Request>, from: nat)
    requires from <= |sent|
    ensures |AnswersFrom(net, sent, from)| == |sent| - from
    decreases |sent| - from
  {
    if from < |sent| {
      AnswersFromLength(net, sent, from + 1);
    }
  }

  /** The answers to a prefix of the log are not changed by later requests. */
  lemma {:induction false} AnswersFromSplit(net: Net, sent: seq<Request>, longer: seq<Request>, from: nat)
    requires sent <= longer && from <= |sent|
    ensures AnswersFrom(net, longer, from) == AnswersFrom(net, sent, from) + AnswersFrom(net, longer, |sent|)
    decreases |sent| - from
  {
    if from < |sent| {
      assert longer[..from + 1] == sent[..from + 1];
      AnswersFromSplit(net, sent, longer, from + 1);
    }
  }

  /**
   `after` extends the log of `before`, and its token is the token of `before`
   updated, in order, by the answers to every request appended since.
   */
  ghost predicate TokenFromAnswers(net: Net, before: Session, after: Session)
  {
    && before.sent <= after.sent
    && after.xsrfToken == StoreAll(before, AnswersFrom(net, after.sent, |before.sent|)).xsrfToken
  }

  /** A call that sends nothing leaves the token as it was. */
  lemma TokenFromNoAnswers(net: Net, s: Session)
    ensures TokenFromAnswers(net, s, s)
  {
  }

  /** The token-store rule composes: two calls in a row store the answers of both. */
  lemma TokenFromAnswersTrans(net: Net, a: Session, b: Session, c: Session)
    requires TokenFromAnswers(net, a, b) && TokenFromAnswers(net, b, c)
    ensures TokenFromAnswers(net, a, c)
  {
    var xs := AnswersFrom(net, b.sent, |a.sent|);
    var ys := AnswersFrom(net, c.sent, |b.sent|);
    AnswersFromSplit(net, b.sent, c.sent, |a.sent|);
    StoreAllAppend(a, xs, ys);
    StoreAllSameToken(b, StoreAll(a, xs), ys);
  }

  /** The caller's header dictionary, or none when the caller passed no `headers`. */
  function CallerHeaders(kwargs: Kwargs): map<string, Value>
  {
    if HeadersArg in kwargs && kwargs[HeadersArg].Dict? then kwargs[HeadersArg].entries else map[]
  }

  /** `headers` is either absent or a dictionary, so `.update` can be called on it. */
  predicate HeadersUpdatable(kwargs: Kwargs)
  {
    HeadersArg in kwargs ==> kwargs[HeadersArg].Dict?
  }

  /**
   `after` is `before` with `X-XSRF-TOKEN: token` merged into its headers: every
   other argument and every other caller header is unchanged.
   */
  ghost predicate MergedXsrf(before: Kwargs, after: Kwargs, token: string)
  {
    && after.Keys == before.Keys + {HeadersArg}
    && (forall k :: k in before && k != HeadersArg ==> after[k] == before[k])
    && after[HeadersArg].Dict?
    && XsrfHeader in after[HeadersArg].entries
    && after[HeadersArg].entries[XsrfHeader] == Str(token)
    && after[HeadersArg].entries.Keys == CallerHeaders(before).Keys + {XsrfHeader}
    && (forall k :: k in CallerHeaders(before) && k != XsrfHeader ==>
          after[HeadersArg].entries[k] == CallerHeaders(before)[k])
  }

  /**
   `_set_xsrf_headers`: reading the token attribute fails while none was ever
   stored; a `headers` argument that is not a dictionary has no `update`.
   */
  function SetXsrfHeaders(s: Session, kwargs: Kwargs): (r: Result<Kwargs, Error>)
    ensures s.xsrfToken.None? ==> r == Err(AttributeError("xsrf_token"))
    ensures s.xsrfToken.Some? && !HeadersUpdatable(kwargs) ==> r == Err(AttributeError("update"))
    ensures s.xsrfToken.Some? && HeadersUpdatable(kwargs) ==>
              r.Ok? && MergedXsrf(kwargs, r.value, s.xsrfToken.value)
  {
    match s.xsrfToken
    case None => Err(AttributeError("xsrf_token"))
    case Some(token) =>
      var xsrf := map[XsrfHeader := Str(token)];
      if HeadersArg in kwargs then
        match kwargs[HeadersArg]
        case Dict(h) => Ok(kwargs[HeadersArg := Dict(h + xsrf)])
        case _ => Err(AttributeError("update"))
      else
        Ok(kwargs[HeadersArg := Dict(xsrf)])
  }

  /** Without caller headers the headers become exactly `{X-XSRF-TOKEN: token}`. */
  lemma NoCallerHeaders(s: Session, kwargs: Kwargs)
    requires s.xsrfToken.Some? && HeadersArg !in kwargs
    ensures SetXsrfHeaders(s, kwargs).Ok?
    ensures SetXsrfHeaders(s, kwargs).value[HeadersArg] == Dict(map[XsrfHeader := Str(s.xsrfToken.value)])
  {
    var h := SetXsrfHeaders(s, kwargs).value[HeadersArg].entries;
    assert h.Keys == {XsrfHeader};
  }

  /** Merging twice is merging once: the header already holds the current token. */
  lemma SetXsrfHeadersIdempotent(s: Session, kwargs: Kwargs)
    requires s.xsrfToken.Some? && HeadersUpdatable(kwargs)
    ensures SetXsrfHeaders(s, SetXsrfHeaders(s, kwargs).value) == SetXsrfHeaders(s, kwargs)
  {
    var once := SetXsrfHeaders(s, kwargs).value;
    var h := once[HeadersArg].entries;
    var xsrf := map[XsrfHeader := Str(s.xsrfToken.value)];
    assert h + xsrf == h;
    assert once[HeadersArg := Dict(h + xsrf)] == once;
  }

  /**
   `r` is the outcome of handing exactly one request `verb url kw` to the
   transport and running the token-store step on the response.
   */
  ghost predicate SentOnce(s: Session, net: Net, r: Step<Response>, verb: Verb, url: Url, kw: Kwargs)
  {
    && r.session.sent == s.sent + [Request(verb, url, kw)]
    && r.result == Ok(net(r.session.sent))
    && r.session.xsrfToken == StoreXsrfToken(s, r.result.value).xsrfToken
  }

  /** The underlying transport call followed by `_store_xsrf_token`. */
  function Send(s: Session, net: Net, req: Request): (r: Step<Response>)
    ensures TokenFromAnswers(net, s, r.session)
  {
    var sent := s.sent + [req];
    var resp := net(sent);
    assert sent[..|s.sent| + 1] == sent;
    assert AnswersFrom(net, sent, |s.sent|) == [resp] + AnswersFrom(net, sent, |sent|);
    Step(StoreXsrfToken(s.(sent := sent), resp), Ok(resp))
  }

  /** `get`: forwards the caller's arguments untouched; never adds the header. */
  function Get(s: Session, net: Net, url: Url, kwargs: Kwargs): (r: Step<Response>)
    ensures SentOnce(s, net, r, GET, url, kwargs)
    ensures TokenFromAnswers(net, s, r.session)
  {
    Send(s, net, Request(GET, url, kwargs))
  }

  /** The `add_xsrf_token` argument, defaulting to `True` when absent. */
  function XsrfFlag(kwargs: Kwargs): Value
  {
    if FlagArg in kwargs then kwargs[FlagArg] else Bool(true)
  }

  /** The shared body of `post` and `put`: pop the flag, merge the header when it is truthy, send. */
  function SendWithOptionalXsrf(s: Session, net: Net, verb: Verb, url: Url, kwargs: Kwargs): (r: Step<Response>)
    ensures TokenFromAnswers(net, s, r.session)
  {
    TokenFromNoAnswers(net, s);
    var rest := kwargs - {FlagArg};
    if Truthy(XsrfFlag(kwargs)) then
      match SetXsrfHeaders(s, rest)
      case Err(e) => Step(s, Err(e))
      case Ok(kw) => Send(s, net, Request(verb, url, kw))
    else
      Send(s, net, Request(verb, url, rest))
  }

  /**
   The contract `post` and `put` share: with a falsy flag the caller's
   arguments minus the flag are sent as they are; with a truthy (or absent)
   flag the header is merged first, and a failed merge sends nothing.
   */
  ghost predicate OptionalXsrfContract(s: Session, net: Net, verb: Verb, url: Url, kwargs: Kwargs, r: Step<Response>)
  {
    var rest := kwargs - {FlagArg};
    && (!Truthy(XsrfFlag(kwargs)) ==> SentOnce(s, net, r, verb, url, rest))
    && (Truthy(XsrfFlag(kwargs)) && SetXsrfHeaders(s, rest).Ok? ==>
          SentOnce(s, net, r, verb, url, SetXsrfHeaders(s, rest).value))
    && (Truthy(XsrfFlag(kwargs)) && SetXsrfHeaders(s, rest).Err? ==>
          r == Step(s, Err(SetXsrfHeaders(s, rest).error)))
  }

  /** `post` */
  function Post(s: Session, net: Net, url: Url, kwargs: Kwargs): (r: Step<Response>)
    ensures OptionalXsrfContract(s, net, POST, url, kwargs, r)
    ensures TokenFromAnswers(net, s, r.session)
  {
    SendWithOptionalXsrf(s, net, POST, url, kwargs)
  }

  /** `put` */
  function Put(s: Session, net: Net, url: Url, kwargs: Kwargs): (r: Step<Response>)
    ensures OptionalXsrfContract(s, net, PUT, url, kwargs, r)
    ensures TokenFromAnswers(net, s, r.session)
  {
    SendWithOptionalXsrf(s, net, PUT, url, kwargs)
  }

  /** `delete`: always merges the header; there is no opt-out flag. */
  function Delete(s: Session, net: Net, url: Url, kwargs: Kwargs): (r: Step<Response>)
    ensures SetXsrfHeaders(s, kwargs).Ok? ==> SentOnce(s, net, r, DELETE, url, SetXsrfHeaders(s, kwargs).value)
    ensures SetXsrfHeaders(s, kwargs).Err? ==> r == Step(s, Err(SetXsrfHeaders(s, kwargs).error))
    ensures TokenFromAnswers(net, s, r.session)
  {
    TokenFromNoAnswers(net, s);
    match SetXsrfHeaders(s, kwargs)
    case Err(e) => Step(s, Err(e))
    case Ok(kw) => Send(s, net, Request(DELETE, url, kw))
  }

  /** The request a successful call appended to the log. */
  function LastSent(s: Session): Request
    requires s.sent != []
  {
    s.sent[|s.sent| - 1]
  }

  /**
   POST and PUT: the forwarded arguments never contain the flag, and they carry
   `X-XSRF-TOKEN` with the current token exactly when the flag is truthy or
   absent (for a caller who did not set that header); a truthy flag with no
   stored token raises before anything is sent.
   */
  lemma PostPutHeaderRule(s: Session, net: Net, verb: Verb, url: Url, kwargs: Kwargs)
    requires verb == POST || verb == PUT
    requires HeadersUpdatable(kwargs)
    requires XsrfHeader !in CallerHeaders(kwargs)
    ensures var r := if verb == POST then Post(s, net, url, kwargs) else Put(s, net, url, kwargs);
      && (r.result.Ok? <==> !Truthy(XsrfFlag(kwargs)) || s.xsrfToken.Some?)
      && (r.result.Err? ==> r.session == s && r.result.error == AttributeError("xsrf_token"))
      && (r.result.Ok? ==>
            && r.session.sent != []
            && LastSent(r.session).verb == verb
            && FlagArg !in LastSent(r.session).kwargs
            && (XsrfHeader in CallerHeaders(LastSent(r.session).kwargs) <==> Truthy(XsrfFlag(kwargs)))
            && (Truthy(XsrfFlag(kwargs)) ==>
                  CallerHeaders(LastSent(r.session).kwargs)[XsrfHeader] == Str(s.xsrfToken.value)))
  {
    var r := if verb == POST then Post(s, net, url, kwargs) else Put(s, net, url, kwargs);
    var rest := kwargs - {FlagArg};
    assert CallerHeaders(rest) == CallerHeaders(kwargs);
    assert HeadersUpdatable(rest);
    if r.result.Ok? {
      if Truthy(XsrfFlag(kwargs)) {
        var kw := SetXsrfHeaders(s, rest).value;
        assert LastSent(r.session).kwargs == kw;
        assert FlagArg !in kw;
      } else {
        assert LastSent(r.session).kwargs == rest;
      }
    }
  }

  /**
   DELETE always carries the current token, and GET never adds one: its
   forwarded headers are exactly the caller's.
   */
  lemma DeleteAndGetHeaderRule(s: Session, net: Net, url: Url, kwargs: Kwargs)
    requires HeadersUpdatable(kwargs)
    ensures var d := Delete(s, net, url, kwargs);
      && (d.result.Ok? <==> s.xsrfToken.Some?)
      && (d.result.Ok? ==> CallerHeaders(LastSent(d.session).kwargs)[XsrfHeader] == Str(s.xsrfToken.value))
    ensures var g := Get(s, net, url, kwargs);
      g.result.Ok? && CallerHeaders(LastSent(g.session).kwargs) == CallerHeaders(kwargs)
  {
    var d := Delete(s, net, url, kwargs);
    if d.result.Ok? {
      assert LastSent(d.session).kwargs == SetXsrfHeaders(s, kwargs).value;
    }
    var g := Get(s, net, url, kwargs);
    assert LastSent(g.session).kwargs == kwargs;
  }

  /** Every verb keeps the stored token well formed and only ever appends to the log. */
  lemma VerbsPreserveToken(s: Session, net: Net, url: Url, kwargs: Kwargs)
    requires TokenWellFormed(s)
    ensures TokenWellFormed(Get(s, net, url, kwargs).session)
    ensures TokenWellFormed(Post(s, net, url, kwargs).session)
    ensures TokenWellFormed(Put(s, net, url, kwargs).session)
    ensures TokenWellFormed(Delete(s, net, url, kwargs).session)
    ensures s.sent <= Get(s, net, url, kwargs).session.sent
    ensures s.sent <= Post(s, net, url, kwargs).session.sent
    ensures s.sent <= Put(s, net, url, kwargs).session.sent
    ensures s.sent <= Delete(s, net, url, kwargs).session.sent
  {
  }
}

=== FILE: sorting.dfy ===
/**
 A stable sort by a string key, as Python's `sorted(data, key=...)` performs it:
 `get_monitors` sorts the monitor records by their `name` field.
 */
module Sorting {
  import opened Strings

  /** Non-decreasing by key. */
  ghost predicate SortedBy<T>(xs: seq<T>, key: T -> string)
  {
    forall i, j :: 0 <= i < j < |xs| ==> LexLe(key(xs[i]), key(xs[j]))
  }

  /** The elements whose key is `n`, in their order in `xs`. */
  function WithKey<T>(xs: seq<T>, key: T -> string, n: string): seq<T>
    decreases |xs|
  {
    if xs == [] then [] else (if key(xs[0]) == n then [xs[0]] else []) + WithKey(xs[1..], key, n)
  }

  /** Inserts `x` before the first element whose key is not smaller than its own. */
  function Insert<T>(x: T, xs: seq<T>, key: T -> string): (r: seq<T>)
    ensures multiset(r) == multiset(xs) + multiset{x}
    decreases |xs|
  {
    if xs == [] then [x]
    else if LexLe(key(x), key(xs[0])) then [x] + xs
    else
      var rest := Insert(x, xs[1..], key);
      assert xs == [xs[0]] + xs[1..];
      [xs[0]] + rest
  }

  /** Unfolding the filter over a sequence that starts with `x`. */
  lemma WithKeyCons<T>(x: T, xs: seq<T>, key: T -> string, n: string)
    ensures WithKey([x] + xs, key, n) == (if key(x) == n then [x] else []) + WithKey(xs, key, n)
  {
    assert ([x] + xs)[0] == x && ([x] + xs)[1..] == xs;
  }

  /** Every key in `xs` is at least `n`. */
  ghost predicate LowerBound<T>(n: string, xs: seq<T>, key: T -> string)
  {
    forall j :: 0 <= j < |xs| ==> LexLe(n, key(xs[j]))
  }

  /** A sorted sequence stays sorted under a new first element that bounds it. */
  lemma ConsLowerBound<T>(y: T, xs: seq<T>, key: T -> string)
    requires SortedBy(xs, key) && LowerBound(key(y), xs, key)
    ensures SortedBy([y] + xs, key)
  {
    var r := [y] + xs;
    forall i, j | 0 <= i < j < |r|
      ensures LexLe(key(r[i]), key(r[j]))
    {
      assert r[j] == xs[j - 1];
      if i > 0 {
        assert r[i] == xs[i - 1];
      }
    }
  }

  /** The head of a sorted sequence bounds its tail. */
  lemma SortedHeadBound<T>(xs: seq<T>, key: T -> string)
    requires xs != [] && SortedBy(xs, key)
    ensures LowerBound(key(xs[0]), xs[1..], key)
  {
    forall j | 0 <= j < |xs[1..]|
      ensures LexLe(key(xs[0]), key(xs[1..][j]))
    {
      assert xs[1..][j] == xs[j + 1];
    }
  }

  /** A smaller bound is still a bound. */
  lemma LowerBoundWeaken<T>(n: string, m: string, xs: seq<T>, key: T -> string)
    requires LexLe(n, m) && LowerBound(m, xs, key)
    ensures LowerBound(n, xs, key)
  {
    forall j | 0 <= j < |xs|
      ensures LexLe(n, key(xs[j]))
    {
      LexLeTransitive(n, m, key(xs[j]));
    }
  }

  /** A bound of `x` and of `xs` bounds their insertion, whose elements are those of `xs` and `x`. */
  lemma InsertLowerBound<T>(n: string, x: T, xs: seq<T>, key: T -> string)
    requires LexLe(n, key(x)) && LowerBound(n, xs, key)
    ensures LowerBound(n, Insert(x, xs, key), key)
  {
    var r := Insert(x, xs, key);
    forall j | 0 <= j < |r|
      ensures LexLe(n, key(r[j]))
    {
      assert r[j] in multiset(r);
      if r[j] != x {
        assert r[j] in multiset(xs);
        var i :| 0 <= i < |xs| && xs[i] == r[j];
      }
    }
  }

  /** Inserting into a sorted sequence keeps it sorted. */
  lemma {:induction false} InsertSorted<T>(x: T, xs: seq<T>, key: T -> string)
    requires SortedBy(xs, key)
    ensures SortedBy(Insert(x, xs, key), key)
    decreases |xs|
  {
    if xs == [] {
      assert Insert(x, xs, key) == [x];
    } else if LexLe(key(x), key(xs[0])) {
      assert Insert(x, xs, key) == [x] + xs;
      forall j | 0 <= j < |xs|
        ensures LexLe(key(x), key(xs[j]))
      {
        if j > 0 {
          LexLeTransitive(key(x), key(xs[0]), key(xs[j]));
        }
      }
      ConsLowerBound(x, xs, key);
    } else {
      var y := xs[0];
      InsertPast(x, xs, key);
      InsertSorted(x, xs[1..], key);
      SortedHeadBound(xs, key);
      LexLeTotal(key(x), key(y));
      InsertLowerBound(key(y), x, xs[1..], key);
      ConsLowerBound(y, Insert(x, xs[1..], key), key);
    }
  }

  /** Past an element with a smaller key, insertion continues in the tail. */
  lemma InsertPast<T>(x: T, xs: seq<T>, key: T -> string)
    requires xs != [] && !LexLe(key(x), key(xs[0]))
    ensures Insert(x, xs, key) == [xs[0]] + Insert(x, xs[1..], key)
    ensures key(x) != key(xs[0])
  {
    if key(x) == key(xs[0]) {
      LexLeReflexive(key(x));
    }
  }

  /** Two filters of which at most one is non-empty commute. */
  lemma SwapSingletons<T>(fx: seq<T>, fy: seq<T>, tail: seq<T>)
    requires fx == [] || fy == []
    ensures fy + (fx + tail) == fx + (fy + tail)
  {
  }

  /** The elements of each key keep their order, with `x` first among its equals. */
  lemma {:induction false} InsertKeepsGroups<T>(x: T, xs: seq<T>, key: T -> string, n: string)
    ensures WithKey(Insert(x, xs, key), key, n) == WithKey([x] + xs, key, n)
    decreases |xs|
  {
    if xs == [] || LexLe(key(x), key(xs[0])) {
      assert Insert(x, xs, key) == [x] + xs;
    } else {
      var y := xs[0];
      var rest := Insert(x, xs[1..], key);
      InsertPast(x, xs, key);
      InsertKeepsGroups(x, xs[1..], key, n);
      var fx := if key(x) == n then [x] else [];
      var fy := if key(y) == n then [y] else [];
      WithKeyCons(y, rest, key, n);
      WithKeyCons(x, xs[1..], key, n);
      WithKeyCons(y, xs[1..], key, n);
      WithKeyCons(x, xs, key, n);
      assert [y] + xs[1..] == xs;
      SwapSingletons(fx, fy, WithKey(xs[1..], key, n));
    }
  }

  /** One step of the sort: inserting the head into the sorted tail keeps the elements and the groups. */
  lemma InsertHead<T>(xs: seq<T>, rest: seq<T>, key: T -> string)
    requires xs != []
    requires multiset(rest) == multiset(xs[1..])
    requires forall n :: WithKey(rest, key, n) == WithKey(xs[1..], key, n)
    ensures multiset(Insert(xs[0], rest, key)) == multiset(xs)
    ensures forall n :: WithKey(Insert(xs[0], rest, key), key, n) == WithKey(xs, key, n)
  {
    assert xs == [xs[0]] + xs[1..];
    forall n
      ensures WithKey(Insert(xs[0], rest, key), key, n) == WithKey(xs, key, n)
    {
      InsertKeepsGroups(xs[0], rest, key, n);
      WithKeyCons(xs[0], rest, key, n);
      WithKeyCons(xs[0], xs[1..], key, n);
    }
  }

  /**
   The sort: the result is ordered by key, is a permutation of the input, and
   is stable (the elements of every key appear in their input order).
   */
  function SortBy<T>(xs: seq<T>, key: T -> string): (r: seq<T>)
    ensures SortedBy(r, key)
    ensures multiset(r) == multiset(xs)
    ensures forall n :: WithKey(r, key, n) == WithKey(xs, key, n)
    decreases |xs|
  {
    if xs == [] then []
    else
      var rest := SortBy(xs[1..], key);
      InsertSorted(xs[0], rest, key);
      InsertHead(xs, rest, key);
      Insert(xs[0], rest, key)
  }

  /** A key that the filter selects occurs in the sequence. */
  lemma {:induction false} WithKeyOccurs<T>(xs: seq<T>, key: T -> string, n: string)
    requires WithKey(xs, key, n) != []
    ensures exists i :: 0 <= i < |xs| && key(xs[i]) == n
    decreases |xs|
  {
    if key(xs[0]) != n {
      WithKeyOccurs(xs[1..], key, n);
      var i :| 0 <= i < |xs[1..]| && key(xs[1..][i]) == n;
      assert key(xs[i + 1]) == n;
    }
  }

  /** The filter for the first element's key selects that element. */
  lemma WithKeyHead<T>(xs: seq<T>, key: T -> string)
    requires xs != []
    ensures WithKey(xs, key, key(xs[0])) != []
  {
  }

  /** The first key of a sorted sequence is at most the key of any element. */
  lemma SortedHeadLeast<T>(xs: seq<T>, key: T -> string, i: int)
    requires SortedBy(xs, key) && 0 <= i < |xs|
    ensures LexLe(key(xs[0]), key(xs[i]))
  {
    if i == 0 {
      LexLeReflexive(key(xs[0]));
    }
  }

  /** Two sorted sequences with the same elements of every key start with the same element. */
  lemma SortedHeadsAgree<T>(a: seq<T>, b: seq<T>, key: T -> string)
    requires a != [] && b != []
    requires SortedBy(a, key) && SortedBy(b, key)
    requires forall n :: WithKey(a, key, n) == WithKey(b, key, n)
    ensures a[0] == b[0]
  {
    var ka, kb := key(a[0]), key(b[0]);
    WithKeyHead(b, key);
    WithKeyOccurs(a, key, kb);
    var i :| 0 <= i < |a| && key(a[i]) == kb;
    SortedHeadLeast(a, key, i);
    WithKeyHead(a, key);
    WithKeyOccurs(b, key, ka);
    var j :| 0 <= j < |b| && key(b[j]) == ka;
    SortedHeadLeast(b, key, j);
    LexLeAntisymmetric(ka, kb);
    assert WithKey(a, key, ka)[0] == a[0] && WithKey(b, key, ka)[0] == b[0];
  }

  /** Removing the same first element keeps the filters equal. */
  lemma WithKeyTailsAgree<T>(a: seq<T>, b: seq<T>, key: T -> string)
    requires a != [] && b != [] && a[0] == b[0]
    requires forall n :: WithKey(a, key, n) == WithKey(b, key, n)
    ensures forall n :: WithKey(a[1..], key, n) == WithKey(b[1..], key, n)
  {
    forall n
      ensures WithKey(a[1..], key, n) == WithKey(b[1..], key, n)
    {
      var p := if key(a[0]) == n then [a[0]] else [];
      assert WithKey(a, key, n) == p + WithKey(a[1..], key, n);
      assert WithKey(b, key, n) == p + WithKey(b[1..], key, n);
      assert WithKey(a[1..], key, n) == (p + WithKey(a[1..], key, n))[|p|..];
      assert WithKey(b[1..], key, n) == (p + WithKey(b[1..], key, n))[|p|..];
    }
  }

  /** The tail of a sorted sequence is sorted. */
  lemma SortedTail<T>(xs: seq<T>, key: T -> string)
    requires xs != [] && SortedBy(xs, key)
    ensures SortedBy(xs[1..], key)
  {
    forall i, j | 0 <= i < j < |xs[1..]|
      ensures LexLe(key(xs[1..][i]), key(xs[1..][j]))
    {
      assert xs[1..][i] == xs[i + 1] && xs[1..][j] == xs[j + 1];
    }
  }

  /**
   Ordered by key with the same elements of every key in the same order: two
   such sequences are equal. So the contract of `SortBy` determines its result.
   */
  lemma {:induction false} SortedByUnique<T>(a: seq<T>, b: seq<T>, key: T -> string)
    requires SortedBy(a, key) && SortedBy(b, key)
    requires forall n :: WithKey(a, key, n) == WithKey(b, key, n)
    ensures a == b
    decreases |a|
  {
    if a == [] || b == [] {
      if a != [] {
        WithKeyHead(a, key);
      } else if b != [] {
        WithKeyHead(b, key);
      }
    } else {
      SortedHeadsAgree(a, b, key);
      WithKeyTailsAgree(a, b, key);
      SortedTail(a, key);
      SortedTail(b, key);
      SortedByUnique(a[1..], b[1..], key);
      assert a == [a[0]] + a[1..] && b == [b[0]] + b[1..];
    }
  }

  /** Any ordering of `xs` that is sorted and keeps every key's elements in input order is `SortBy`'s result. */
  lemma SortByDetermined<T>(xs: seq<T>, r: seq<T>, key: T -> string)
    requires SortedBy(r, key)
    requires forall n :: WithKey(r, key, n) == WithKey(xs, key, n)
    ensures r == SortBy(xs, key)
  {
    SortedByUnique(r, SortBy(xs, key), key);
  }
}

=== FILE: strings.dfy ===
/** String facts the client relies on: Python's string ordering and substring test. */
module Strings {

  /** Python's `a <= b` on strings: lexicographic by code point, a proper prefix first. */
  predicate LexLe(a: string, b: string)
    decreases |a|
  {
    a == [] || (b != [] && (a[0] < b[0] || (a[0] == b[0] && LexLe(a[1..], b[1..]))))
  }

  lemma {:induction false} LexLeReflexive(a: string)
    ensures LexLe(a, a)
    decreases |a|
  {
    if a != [] {
      LexLeReflexive(a[1..]);
    }
  }

  lemma {:induction false} LexLeTotal(a: string, b: string)
    ensures LexLe(a, b) || LexLe(b, a)
    decreases |a|
  {
    if a != [] && b != [] && a[0] == b[0] {
      LexLeTotal(a[1..], b[1..]);
    }
  }

  lemma {:induction false} LexLeTransitive(a: string, b: string, c: string)
    requires LexLe(a, b) && LexLe(b, c)
    ensures LexLe(a, c)
    decreases |a|
  {
    if a != [] && a[0] == b[0] && b[0] == c[0] {
      LexLeTransitive(a[1..], b[1..], c[1..]);
    }
  }

  lemma {:induction false} LexLeAntisymmetric(a: string, b: string)
    requires LexLe(a, b) && LexLe(b, a)
    ensures a == b
    decreases |a|
  {
    if a != [] {
      LexLeAntisymmetric(a[1..], b[1..]);
      assert a == [a[0]] + a[1..];
      assert b == [b[0]] + b[1..];
    }
  }

  /** Python's `sub in s` on strings. */
  predicate Contains(s: string, sub: string)
    decreases |s|
  {
    sub <= s || (s != [] && Contains(s[1..], sub))
  }
}

=== FILE: values.dfy ===
/**
 Python values as the client sees them: JSON documents decoded from response
 bodies, keyword arguments, header dictionaries and request payloads.
 */
module Values {

  datatype Value =
    | Null
    | Bool(b: bool)
    | Int(i: int)
    | Str(s: string)
    | List(items: seq<Value>)
    | Dict(entries: map<string, Value>)

  /** Python truthiness: `None`, `False`, `0` and empty containers are false. */
  predicate Truthy(v: Value)
  {
    match v
    case Null => false
    case Bool(b) => b
    case Int(i) => i != 0
    case Str(s) => s != ""
    case List(xs) => xs != []
    case Dict(m) => m != map[]
  }

  /** The exceptions the client code can raise or let escape. */
  datatype Error =
    | HTTPError(status: int)          // `raise_for_status` on a 4xx or 5xx response
    | AttributeError(name: string)    // an attribute that was never assigned or does not exist
    | UnboundLocalError(name: string) // a local variable read before any assignment
    | KeyError(key: string)           // subscripting a dict with a missing key
    | TypeError                       // subscripting or iterating a value of the wrong type
    | ValueError                      // decoding a body that is not JSON
    | Raised(message: string)         // a plain `Exception(message)` raised by the client
}

=== FILE: wrappers.dfy ===
/** Option and Result, the two failure-carrying shapes the rest of the model uses. */
module Wrappers {

  /** A value that may be absent (Python's `None` for an attribute never set). */
  datatype Option<+T> = None | Some(value: T)

  /** A computation that either produced a value or raised an exception. */
  datatype Result<+T, +E> = Ok(value: T) | Err(error: E)
}
